=== FILE: README.md ===
# FlexiDrive availability and booking hand-off, in Dafny

This project models the logic core of the FlexiDrive car-rental site.

**Daily availability calculator.** For a selected date, `calculateDailyStatuses` runs once per vehicle. It:

- keeps the bookings of that vehicle whose day range covers the date;
- turns each booking's dates and `HH:mm` times into absolute instants;
- clamps each one to the day;
- sorts the busy intervals by start;
- sweeps them with a cursor, emitting the gaps as free slots, plus a trailing slot up to one minute past the end of the day;
- reports `Vacant` when any slot remains and `Rented` otherwise.

**Booked-day markers.** `bookedDates` expands every booking into the calendar days it spans. The calendar marks a day when it is in that list.

**Booking hand-off.** This part covers:

- the booking form's schema;
- the query string its `onSubmit` builds;
- the two date pickers' `disabled` rules;
- the details page, which reads the query back with `"N/A"` defaults, checks the client's contact details and assembles the confirmed booking record.

Time is an integer count of milliseconds.

- `StartOfDay(t)` is `t` rounded down to a multiple of 86 400 000.
- `EndOfDay` is 86 399 999 ms later.
- `AddMinutes(EndOfDay, 1)` is the slot horizon.
- A booking time `HH:mm` is a minute of the day, 0 to 1439. Its instant is the day start plus that many minutes, since parsing zeroes the seconds.

Modules follow the program's structure:

| file | module | what it holds |
|---|---|---|
| wrappers.dfy | `Wrappers` | `Option`, `Result` |
| time.dfy | `Time` | day arithmetic |
| intervals.dfy | `Intervals` | intervals, ordering, the sort |
| sweep.dfy | `Sweep` | the cursor sweep and its free slots |
| calendar.dfy | `Calendar` | vehicles, bookings, filter, clamp, per-vehicle status, the mock data |
| calendar_properties.dfy | `CalendarProperties` | properties of the calculator and of the mock data |
| booked_days.dfy | `BookedDays` | day expansion and the booked-day marker |
| query_string.dfy | `QueryString` | `URLSearchParams` as a list of pairs |
| booking_form.dfy | `BookingForm` | booking schema, query encoder, pickers |
| booking_details.dfy | `BookingDetails` | decoder, client schema, booking record |

Query keys are the datatype `BookingForm.Param`, which has one constructor per parameter name; `Name` gives each one's text. `BookingForm.AsText` turns a query into one with text keys, and `get` answers the same on both.

What the proofs show about the calculator as written:

- **The fully booked demo day stays Vacant.** The MG5 booking on day +10 runs `00:00`–`23:59`. Its end is 23:59:00.000, which is not past `dayEnd` (23:59:59.999), so it is not raised to the horizon. The trailing slot from 23:59:00.000 to the horizon remains. The horizon is `dayEnd` plus one minute, which is 00:00:59.999 of the next day. Only a booking whose end passes `dayEnd` can make a day `Rented` (`CalendarProperties.FullyBookedDemoIsVacant`, `CalendarProperties.RentedNeedsOverrun`).
- **Same-day bookings can be missed.** The filter compares the untruncated selected instant with the bookings' day starts. A booking whose end day is the selected day is therefore dropped whenever the selected instant is after midnight. Only the selected instant's time of day matters, because the booking dates are truncated with `startOfDay`. The page's first render selects the current time, so it misses such bookings (`CalendarProperties.SameDayBookingsMissedAfterMidnight`).
- **The locations never reach the details page.** The encoder never sends `pickupLocation` or `dropoffLocation`, so the details page always shows `"N/A"` for both. It also ignores the travel area and destination that were sent (`BookingDetails.HandOffRoundTrip`, `BookingDetails.TravelFieldsIgnored`).

## Model

| member | source | states |
|---|---|---|
| Time.StartOfDay | src/app/calendar/page.tsx:84 | the result is a day start, at most `t`, less than a day before `t` |
| Time.EndOfDay | src/app/calendar/page.tsx:85 | the result is within a day after `t`, and one millisecond later a new day starts |
| Intervals.SortByStart | src/app/calendar/page.tsx:101 | the sort's result is ordered by start and a permutation (same multiset) of its input |
| Intervals.SortKeepsElements | src/app/calendar/page.tsx:101 | sorting keeps the length and exactly the same intervals |
| Calendar.BookingStart | src/app/calendar/page.tsx:94 | the parsed start lies on the start date's day, exactly the start time's minutes past its midnight |
| Calendar.BookingEnd | src/app/calendar/page.tsx:95 | the parsed end lies on the end date's day, exactly the end time's minutes past its midnight |
| Calendar.Relevant | src/app/calendar/page.tsx:88-91 | a booking is kept iff it belongs to the vehicle and `startOfDay(start) <= selected <= startOfDay(end)`, inclusive at both ends and with `selected` not truncated |
| Calendar.ForVehicle | src/app/calendar/page.tsx:88-89 | keeps exactly the bookings of the named vehicle |
| Calendar.RelevantOnlyOwnBookings | src/app/calendar/page.tsx:88-91 | filtering out other vehicles' bookings first leaves the relevant bookings unchanged |
| Calendar.Clamp | src/app/calendar/page.tsx:93-100 | asymmetric clamp: the start is the later of the booking start and `dayStart`; the end is the horizon if the booking ends after `dayEnd`, else the booking end unchanged |
| Calendar.ClampAll | src/app/calendar/page.tsx:93 | the `map` keeps length and order: entry `k` is the clamp of booking `k` |
| Calendar.ClampRelevant | src/app/calendar/page.tsx:94-98 | a relevant booking clamps to an interval starting at or before 23:59 and ending at or after `dayStart`, strictly before `dayEnd` or exactly at the horizon; on the day its interval holds an instant iff the booking does |
| Calendar.BusyIntervals | src/app/calendar/page.tsx:93-101 | busy intervals are sorted by start and are a permutation of the clamps of the relevant bookings, duplicates included; an interval occurs iff it is the clamp of some relevant booking |
| Calendar.Compact | src/app/calendar/page.tsx:119 | keeps exactly the non-empty slots, and returns its input unchanged when every slot is non-empty |
| Calendar.VehicleStatus | src/app/calendar/page.tsx:87-129 | name and prices are copied; `Vacant` iff slots remain; the compaction removes nothing; with no relevant booking the single slot is the whole day up to the horizon |
| Calendar.DailyStatuses | src/app/calendar/page.tsx:83-130 | one entry per vehicle, in the order of the vehicle list, each that vehicle's status |
| Sweep.SweepFrom | src/app/calendar/page.tsx:104-113 | the cursor never decreases and ends at or past every busy end; every gap is non-empty and starts at or after the initial cursor; at most one gap per busy interval |
| Sweep.SweepCursorIsAnEnd | src/app/calendar/page.tsx:104-113 | the final cursor is the initial one or the end of some busy interval |
| Sweep.SweepAppend | src/app/calendar/page.tsx:106-113 | sweeping two lists in a row equals sweeping their concatenation |
| Sweep.SweepGapsOrdered | src/app/calendar/page.tsx:106-113 | over well-formed intervals, gaps are strictly increasing, pairwise disjoint and end at or before the final cursor |
| Sweep.SweepGapsAvoidBusy | src/app/calendar/page.tsx:106-113 | over a start-sorted list, no gap overlaps any busy interval |
| Sweep.SweepGapsBelow | src/app/calendar/page.tsx:106-109 | no gap ends past a bound that every busy start respects |
| Sweep.SweepCovers | src/app/calendar/page.tsx:106-113 | every instant between the initial and the final cursor lies in a gap or in a busy interval |
| Sweep.NestedOpensNoGap | src/app/calendar/page.tsx:110-112 | removing an interval nested in an earlier one changes neither the gaps nor the cursor |
| Sweep.SkipPassed | src/app/calendar/page.tsx:107-112 | an interval lying wholly before the cursor is skipped |
| Sweep.FreeSlots | src/app/calendar/page.tsx:103-117 | every slot is non-empty and starts at or after `dayStart`; with no busy interval the result is exactly `[dayStart, horizon)` |
| Sweep.FreeSlotsOrdered | src/app/calendar/page.tsx:103-117 | over well-formed busy intervals, free slots are strictly increasing and pairwise disjoint |
| Sweep.FreeSlotsAvoidBusy | src/app/calendar/page.tsx:103-117 | over start-sorted busy intervals (as `BusyIntervals` yields), no free slot overlaps a busy interval |
| Sweep.FreeSlotsCover | src/app/calendar/page.tsx:103-117 | when no busy interval ends in `[dayEnd, horizon)`, every instant from `dayStart` up to the horizon is in a free slot or a busy interval; `CalendarProperties.BusyBounds` gives that condition for the calculator |
| CalendarProperties.VehicleIsolation | src/app/calendar/page.tsx:87-89 | a vehicle's status depends only on its own bookings |
| CalendarProperties.BusyBounds | src/app/calendar/page.tsx:93-100 | every busy interval starts in the day, at or after `dayStart` and at or before 23:59, and ends before `dayEnd` or exactly at the horizon |
| CalendarProperties.SlotsWithinDay | src/app/calendar/page.tsx:103-117 | every slot starts in `[dayStart, dayEnd)` and ends at or before the horizon |
| CalendarProperties.SlotsOrdered | src/app/calendar/page.tsx:103-117 | with bookings that do not end before they start, a vehicle's slots are strictly increasing and disjoint |
| CalendarProperties.SlotsAvoidBookings | src/app/calendar/page.tsx:93-113 | no instant of the day in a free slot lies in a clamped busy interval or in a relevant booking |
| CalendarProperties.RentedIffDayFullyBooked | src/app/calendar/page.tsx:103-126 | `Rented` iff every millisecond from midnight through `dayEnd` lies inside some relevant booking |
| CalendarProperties.RentedNeedsOverrun | src/app/calendar/page.tsx:98 | `Rented` only when some relevant booking ends after `dayEnd` |
| CalendarProperties.SameDayBookingsMissedAfterMidnight | src/app/calendar/page.tsx:90 | when every booking of the vehicle ends on the selected day, whatever day it started, and the selected instant is after midnight, the whole day shows free |
| CalendarProperties.MockBookingsOrdered | src/app/calendar/page.tsx:21-33 | every mock booking starts on or before the day it ends |
| CalendarProperties.MockRelevantOnDayTen | src/app/calendar/page.tsx:21-33 | at midnight of day +10, only the all-day demo booking is relevant for the MG5 |
| CalendarProperties.RelevantSkip | src/app/calendar/page.tsx:88-91 | a booking that fails the filter can be dropped from the list |
| CalendarProperties.LastMinuteStaysFree | src/app/calendar/page.tsx:93-117 | a lone `00:00`–`23:59` same-day booking leaves exactly the slot `[23:59, horizon)` and the status `Vacant` |
| CalendarProperties.FullyBookedDemoIsVacant | src/app/calendar/page.tsx:31-32 | on day +10 the MG5 demo day shows `Vacant` with the single slot from 23:59 to the horizon (00:00:59.999 of the next day) |
| BookedDays.DayRange | src/app/calendar/page.tsx:40-45 | the loop lists exactly the day starts from the first day through the last, one day apart, `last - first` days plus one, none when reversed |
| BookedDays.BookedDates | src/app/calendar/page.tsx:38-47 | a day is listed iff some booking's day range contains it |
| BookedDays.IsBooked | src/app/calendar/page.tsx:62 | a date is marked iff its own midnight is in the booked-date list |
| BookedDays.BookedIffSomeBookingSpansDay | src/app/calendar/page.tsx:62 | a date is marked iff some booking has `startOfDay(start) <= startOfDay(date) <= startOfDay(end)` |
| BookedDays.MarkerMatchesCalculatorAtMidnight | src/app/calendar/page.tsx:62 | at midnight the marker agrees with the calculator's filter: marked iff some booking covers the date |
| QueryString.Append | src/components/booking-section.tsx:172-178 | `append` keeps every earlier pair in place and adds the new pair last |
| QueryString.AppendIf | src/components/booking-section.tsx:172-178 | a guarded `append` adds the pair last, earlier pairs untouched, when the value is present, and leaves the query unchanged otherwise |
| QueryString.Get | src/app/booking/details/page.tsx:26-32 | `get` answers `null` iff the key is absent, and otherwise the value of the first pair with that key |
| QueryString.Count | src/components/booking-section.tsx:172-178 | the number of pairs with a key is zero iff the key is absent |
| QueryString.GetAppend | src/components/booking-section.tsx:172-178 | after an append, `get` of the appended key answers the new value iff the key was absent; every other answer is unchanged |
| QueryString.CountDistinct | src/components/booking-section.tsx:172-178 | with distinct keys, each present key occurs exactly once |
| QueryString.PresentLookup | src/components/booking-section.tsx:172-178 | with distinct keys, skipping absent values leaves `get` answering exactly each entry's optional value |
| QueryString.PresentSnoc | src/components/booking-section.tsx:172-178 | adding an entry at the end appends its pair when its value is present and nothing otherwise, as a guarded `append` does |
| QueryString.GetRenamed | src/components/booking-section.tsx:172-178 | renaming keys one-to-one does not change what `get` answers |
| BookingForm.FormErrors | src/components/booking-section.tsx:32-48 | the failing fields are exactly those breaking their rule, and none fail iff the schema accepts |
| BookingForm.EveryFieldListed | src/components/booking-section.tsx:32-48 | the schema lists every field of the form |
| BookingForm.NamesDistinct | src/components/booking-section.tsx:172-178 | distinct parameters have distinct names |
| BookingForm.AsText | src/components/booking-section.tsx:171-180 | `get` by name on the text query answers as `get` by parameter |
| BookingForm.HandOffEntries | src/components/booking-section.tsx:172-178 | the seven appends in order: `vehicleName` skipped iff empty, each date skipped iff not picked, area, destination and both times always sent as entered |
| BookingForm.EncodeQuery | src/components/booking-section.tsx:170-181 | `vehicleName` only when non-empty, the dates only when picked as their ISO text; area, destination and both times exactly once; keys in fixed order; no `pickupLocation` or `dropoffLocation` |
| BookingForm.OnSubmitAppends | src/components/booking-section.tsx:171-178 | the encoded query is exactly the result of the seven `append` calls in source order, the guarded ones skipped when their value is absent |
| BookingForm.EncodeFacts | src/components/booking-section.tsx:171-178 | the appended keys are distinct and rank-ordered, and no location key appears |
| BookingForm.PresentRanked | src/components/booking-section.tsx:171-178 | skipping absent values keeps the key order |
| BookingForm.PresentOrder | src/components/booking-section.tsx:171-178 | two sent pairs keep the relative order of the entries they come from |
| BookingForm.RankedCount | src/components/booking-section.tsx:173-178 | in a rank-ordered query a present key occurs exactly once |
| BookingForm.Submit | src/components/booking-section.tsx:170-181 | the query is produced iff the schema accepts the values; otherwise the failing fields are reported |
| BookingForm.AcceptedFormSendsEveryKey | src/components/booking-section.tsx:172-178 | on every accepted form all seven keys are sent exactly once |
| BookingForm.InitialValues | src/components/booking-section.tsx:152-167 | defaults are the preset vehicle, `Metro Manila` and `10:00` twice; a fresh form fails exactly on destination, both dates, and the vehicle when none was preset |
| BookingForm.PickupDisabled | src/components/booking-section.tsx:307-309 | a date is disabled iff its day is before today |
| BookingForm.ReturnDisabled | src/components/booking-section.tsx:348-350 | with no pickup date this is the pickup rule; otherwise a date is disabled iff it is before the pickup, so the pickup date and every later date are enabled; for a pickup at midnight, disabled iff the date's day is before the pickup day; a day before today stays disabled when the pickup was enabled |
| BookingDetails.OrNotAvailable | src/app/booking/details/page.tsx:26-32 | the value when present and non-empty, `"N/A"` when absent or empty, never empty |
| BookingDetails.DecodeDetails | src/app/booking/details/page.tsx:26-32 | each text field is the first value sent for its key when that is non-empty, and `"N/A"` when the key is absent or its value empty; each date is the first value sent for its key, `null` iff the key is absent |
| BookingDetails.HandOffRoundTrip | src/app/booking/details/page.tsx:26-32 | decoding an encoded form gives back the vehicle and times (or `"N/A"` if empty), the dates' ISO text when picked, and `"N/A"` for both locations |
| BookingDetails.AcceptedHandOff | src/app/booking/details/page.tsx:26-32 | for an accepted form the details page receives exactly its vehicle, dates and times, with both locations `"N/A"` |
| BookingDetails.TravelFieldsIgnored | src/app/booking/details/page.tsx:26-32 | the travel area and destination do not affect what the details page reads |
| BookingDetails.ClientErrors | src/app/booking/details/page.tsx:16-20 | the failing contact fields are exactly those breaking their rule: a name of at least 2 characters, a valid email, a phone of at least 10 characters |
| BookingDetails.ConfirmBooking | src/app/booking/details/page.tsx:43-55 | a record is produced iff the contact details pass, and it carries them and the decoded booking unchanged |
| BookingDetails.InitialClientInfo | src/app/booking/details/page.tsx:34-41 | the empty defaults fail every contact rule |

## Left out

- Time zones and daylight saving: `startOfDay` and `endOfDay` use fixed 24-hour UTC-like days.
- `parse(…, 'HH:mm', …)`, `format`, `new Date(string)` and the date display at src/app/booking/details/page.tsx:166-169 are library behaviour. Booking times are taken as minutes of the day.
- `toISOString` is library behaviour, so it is the parameter `iso`.
- zod's email regex is library behaviour, so it is the parameter `isEmail`.
- String lengths count characters, not UTF-16 code units.
- Percent-encoding by `URLSearchParams.toString` and `router.push` are left out. The query is handed over as pairs.
- React state and effects (src/app/calendar/page.tsx:74-133) are left out, including the empty result when no date is selected. The calculator is called with a selected instant.
- JSX, toasts, `console.log` and the `!props.outside` display condition are left out.
- `PlacesAutocompleteInput` (src/components/booking-section.tsx:70-146) is left out: it is a third-party Places API with timers.
- The static-content pages and components are left out.
- Vehicle prices stay the strings the source uses.
- The `new Set` around the booked dates deduplicates `Date` objects by reference, so it removes nothing. The list is modelled without it.
- Calendar.Relevant: requires every booking of the vehicle to start on or before the day it ends (`OrderedFor`). `isWithinInterval` on a reversed range depends on the date library version. `VehicleStatus`, `DailyStatuses`, `BusyIntervals` and the calendar properties carry the same precondition. The `&&` short-circuit means other vehicles' bookings are unconstrained.
- CalendarProperties.SlotsOrdered: requires that no relevant booking ends before it starts. The source gives no ordering in that case.
- Sweep.SweepGapsOrdered: requires well-formed busy intervals, for the same reason.
- Sweep.FreeSlotsOrdered: requires well-formed busy intervals, for the same reason.
- Intervals.SortByStart: proves a sorted permutation, not the stability of `Array.prototype.sort`.
- QueryString.Get: keys are `BookingForm.Param` values rather than text. `BookingForm.AsText` and `BookingForm.NamesDistinct` connect the two views.

=== FILE: booked_days.dfy ===
/**
 * The calendar's booked-day markers: every booking is expanded into the
 * midnights of the days it spans, and a calendar day carries the car marker
 * when it is the same day as one of them.
 */
module BookedDays {
  import opened Time
  import opened Calendar

  /**
   * The midnights from `first` through `last`, one day apart, as the
   * expansion loop pushes them. A reversed range gives none; otherwise one
   * entry per day, both ends included.
   */
  function DayRange(first: Timestamp, last: Timestamp): (r: seq<Timestamp>)
    requires IsDayStart(first)
    ensures forall d :: d in r <==> IsDayStart(d) && first <= d <= last
    ensures forall i :: 0 <= i < |r| ==> r[i] == first + i * DayMs
    ensures IsDayStart(last) ==> |r| == if first <= last then (last - first) / DayMs + 1 else 0
    decreases if first <= last then last - first + 1 else 0
  {
    if first > last then []
    else
      ShiftDayStart(first, 1);
      var rest := DayRange(first + DayMs, last);
      assert forall d :: IsDayStart(d) && first < d ==> first + DayMs <= d by {
        forall d | IsDayStart(d) && first < d
          ensures first + DayMs <= d
        {
          if d < first + DayMs {
            DayStartsApart(first, d);
          }
        }
      }
      assert IsDayStart(last) && last < first + DayMs ==> last == first by {
        if IsDayStart(last) && last < first + DayMs {
          DayStartsApart(first, last);
        }
      }
      [first] + rest
  }

  /** The days one booking contributes. */
  function BookingDays(b: Booking): seq<Timestamp> {
    DayRange(StartOfDay(b.startDate), StartOfDay(b.endDate))
  }

  /** `bookedDates`: the days of every booking, in booking order; nothing is deduplicated. */
  function BookedDates(bookings: seq<Booking>): (r: seq<Timestamp>)
    ensures forall d :: d in r <==> exists b :: b in bookings && d in BookingDays(b)
    decreases |bookings|
  {
    if bookings == [] then []
    else
      assert bookings == [bookings[0]] + bookings[1..];
      BookingDays(bookings[0]) + BookedDates(bookings[1..])
  }

  /**
   * `bookedDates.some(bookedDate => isSameDay(date, bookedDate))`. Every
   * listed date is a midnight, so this asks whether the date's own midnight
   * is listed.
   */
  function IsBooked(bookings: seq<Booking>, date: Timestamp): (r: bool)
    ensures r <==> StartOfDay(date) in BookedDates(bookings)
  {
    var dates := BookedDates(bookings);
    assert forall d :: d in dates ==> IsDayStart(d);
    if StartOfDay(date) in dates then
      StartOfDayUnique(StartOfDay(date), StartOfDay(date));
      var i :| 0 <= i < |dates| && dates[i] == StartOfDay(date);
      assert IsSameDay(date, dates[i]);
      exists i :: 0 <= i < |dates| && IsSameDay(date, dates[i])
    else
      forall i | 0 <= i < |dates| ensures !IsSameDay(date, dates[i]) {
        assert dates[i] in dates;
        StartOfDayUnique(dates[i], dates[i]);
      }
      exists i :: 0 <= i < |dates| && IsSameDay(date, dates[i])
  }

  /** A date carries the marker exactly when some booking's day range, ends included, holds its day. */
  lemma BookedIffSomeBookingSpansDay(bookings: seq<Booking>, date: Timestamp)
    ensures IsBooked(bookings, date) <==>
              exists b :: b in bookings && StartOfDay(b.startDate) <= StartOfDay(date) <= StartOfDay(b.endDate)
  {
    var dates := BookedDates(bookings);
    var day := StartOfDay(date);
    if IsBooked(bookings, date) {
      var i :| 0 <= i < |dates| && IsSameDay(date, dates[i]);
      assert dates[i] in dates;
      var b :| b in bookings && dates[i] in BookingDays(b);
      StartOfDayUnique(dates[i], dates[i]);
    }
    if exists b :: b in bookings && StartOfDay(b.startDate) <= day <= StartOfDay(b.endDate) {
      var b :| b in bookings && StartOfDay(b.startDate) <= day <= StartOfDay(b.endDate);
      assert day in BookingDays(b);
      assert day in dates;
      var i :| 0 <= i < |dates| && dates[i] == day;
      StartOfDayUnique(day, day);
      assert IsSameDay(date, dates[i]);
    }
  }

  /**
   * At midnight the marker and the calculator agree: a day is marked exactly
   * when some booking is relevant to it for the calculator.
   */
  lemma MarkerMatchesCalculatorAtMidnight(bookings: seq<Booking>, date: Timestamp)
    requires IsDayStart(date)
    requires forall b :: b in bookings ==> DaysOrdered(b)
    ensures IsBooked(bookings, date) <==> exists b :: b in bookings && CoversDate(b, date)
  {
    StartOfDayUnique(date, date);
    BookedIffSomeBookingSpansDay(bookings, date);
  }
}

=== FILE: booking_details.dfy ===
/**
 * The booking details page: it reads the hand-off query, fills missing
 * values with "N/A", asks for the client's contact details and assembles the
 * booking record it confirms.
 */
module BookingDetails {
  import opened Wrappers
  import opened Time
  import opened QueryString
  import opened BookingForm

  /** The placeholder the page shows for a missing or empty parameter. */
  const NotAvailable: string := "N/A"

  /** The booking as the page holds it; the two dates keep `null` when absent. */
  datatype Details = Details(
    vehicleName: string,
    pickupLocation: string,
    dropoffLocation: string,
    pickupDate: Option<string>,
    returnDate: Option<string>,
    pickupTime: string,
    returnTime: string)

  /** `get(key) || 'N/A'`: both `null` and the empty string are falsy. */
  function OrNotAvailable(o: Option<string>): (s: string)
    ensures s != ""
    ensures s == NotAvailable <==> o.None? || o.value == "" || o.value == NotAvailable
    ensures o.Some? && o.value != "" ==> s == o.value
  {
    if o.Some? && o.value != "" then o.value else NotAvailable
  }

  /** The seven reads from the search parameters at the top of the page. */
  function DecodeDetails(q: Query<Param>): (d: Details)
    ensures d.vehicleName != "" && d.pickupLocation != "" && d.dropoffLocation != ""
    ensures d.pickupTime != "" && d.returnTime != ""
    ensures !HasKey(q, PickupLocationParam) ==> d.pickupLocation == NotAvailable
    ensures !HasKey(q, DropoffLocationParam) ==> d.dropoffLocation == NotAvailable
    ensures d.pickupDate.None? <==> !HasKey(q, PickupDateParam)
    ensures d.returnDate.None? <==> !HasKey(q, ReturnDateParam)
    ensures Get(q, VehicleNameParam).Some? && Get(q, VehicleNameParam).value != "" ==> d.vehicleName == Get(q, VehicleNameParam).value
    ensures Get(q, PickupLocationParam).Some? && Get(q, PickupLocationParam).value != "" ==> d.pickupLocation == Get(q, PickupLocationParam).value
    ensures Get(q, DropoffLocationParam).Some? && Get(q, DropoffLocationParam).value != "" ==> d.dropoffLocation == Get(q, DropoffLocationParam).value
    ensures Get(q, PickupTimeParam).Some? && Get(q, PickupTimeParam).value != "" ==> d.pickupTime == Get(q, PickupTimeParam).value
    ensures Get(q, ReturnTimeParam).Some? && Get(q, ReturnTimeParam).value != "" ==> d.returnTime == Get(q, ReturnTimeParam).value
    ensures Get(q, VehicleNameParam) in {None, Some("")} ==> d.vehicleName == NotAvailable
    ensures Get(q, PickupLocationParam) in {None, Some("")} ==> d.pickupLocation == NotAvailable
    ensures Get(q, DropoffLocationParam) in {None, Some("")} ==> d.dropoffLocation == NotAvailable
    ensures Get(q, PickupTimeParam) in {None, Some("")} ==> d.pickupTime == NotAvailable
    ensures Get(q, ReturnTimeParam) in {None, Some("")} ==> d.returnTime == NotAvailable
    ensures HasKey(q, PickupDateParam) ==> d.pickupDate == Get(q, PickupDateParam)
    ensures HasKey(q, ReturnDateParam) ==> d.returnDate == Get(q, ReturnDateParam)
  {
    Details(
      OrNotAvailable(Get(q, VehicleNameParam)),
      OrNotAvailable(Get(q, PickupLocationParam)),
      OrNotAvailable(Get(q, DropoffLocationParam)),
      Get(q, PickupDateParam),
      Get(q, ReturnDateParam),
      OrNotAvailable(Get(q, PickupTimeParam)),
      OrNotAvailable(Get(q, ReturnTimeParam)))
  }

  /**
   * What the details page makes of what the booking form sends. The vehicle
   * and the times arrive unless empty, the dates arrive as their ISO strings
   * when picked, and the two locations are always "N/A": the form never sends
   * them.
   */
  lemma HandOffRoundTrip(f: BookingFormValues, iso: Timestamp -> string)
    ensures var d := DecodeDetails(EncodeQuery(f, iso));
      && d.vehicleName == (if f.vehicleName != "" then f.vehicleName else NotAvailable)
      && d.pickupLocation == NotAvailable && d.dropoffLocation == NotAvailable
      && d.pickupDate == (if f.pickupDate.Some? then Some(iso(f.pickupDate.value)) else None)
      && d.returnDate == (if f.returnDate.Some? then Some(iso(f.returnDate.value)) else None)
      && d.pickupTime == (if f.pickupTime != "" then f.pickupTime else NotAvailable)
      && d.returnTime == (if f.returnTime != "" then f.returnTime else NotAvailable)
  {
  }

  /**
   * For values the booking schema accepts, every form value except the
   * travel area and destination reaches the details page unchanged.
   */
  lemma AcceptedHandOff(f: BookingFormValues, iso: Timestamp -> string)
    requires SchemaValid(f)
    ensures f.pickupDate.Some? && f.returnDate.Some?
    ensures Submit(f, iso) == Success(EncodeQuery(f, iso))
    ensures DecodeDetails(EncodeQuery(f, iso)) ==
      Details(f.vehicleName, NotAvailable, NotAvailable,
              Some(iso(f.pickupDate.value)), Some(iso(f.returnDate.value)),
              f.pickupTime, f.returnTime)
  {
    assert f.vehicleName != "" && f.pickupDate.Some? && f.returnDate.Some? && f.pickupTime != "" && f.returnTime != "" by {
      assert FieldValid(f, VehicleName) && FieldValid(f, PickupDate) && FieldValid(f, ReturnDate);
      assert FieldValid(f, PickupTime) && FieldValid(f, ReturnTime);
    }
    HandOffRoundTrip(f, iso);
  }

  /** The travel area and destination are sent but never read: changing them changes nothing on the details page. */
  lemma TravelFieldsIgnored(f: BookingFormValues, area: string, destination: string, iso: Timestamp -> string)
    ensures DecodeDetails(EncodeQuery(f, iso)) ==
            DecodeDetails(EncodeQuery(f.(travelArea := area, travelDestination := destination), iso))
  {
    HandOffRoundTrip(f, iso);
    HandOffRoundTrip(f.(travelArea := area, travelDestination := destination), iso);
  }

  /** The client's contact details. */
  datatype ClientInfo = ClientInfo(fullName: string, email: string, phone: string)

  datatype ClientField = FullName | Email | Phone

  /**
   * `clientInfoSchema`, field by field: a name of at least two characters,
   * an address the email check accepts, a phone number of at least ten
   * characters. `isEmail` is the email format check.
   */
  predicate ClientFieldValid(c: ClientInfo, field: ClientField, isEmail: string -> bool) {
    match field
    case FullName => |c.fullName| >= 2
    case Email => isEmail(c.email)
    case Phone => |c.phone| >= 10
  }

  predicate ClientValid(c: ClientInfo, isEmail: string -> bool) {
    ClientFieldValid(c, FullName, isEmail) && ClientFieldValid(c, Email, isEmail) && ClientFieldValid(c, Phone, isEmail)
  }

  /** The fields `clientInfoSchema` rejects, in declaration order. */
  function ClientErrors(c: ClientInfo, isEmail: string -> bool): (errs: seq<ClientField>)
    ensures forall field :: field in errs <==> !ClientFieldValid(c, field, isEmail)
    ensures errs == [] <==> ClientValid(c, isEmail)
    ensures |errs| <= 3
  {
    (if ClientFieldValid(c, FullName, isEmail) then [] else [FullName])
    + (if ClientFieldValid(c, Email, isEmail) then [] else [Email])
    + (if ClientFieldValid(c, Phone, isEmail) then [] else [Phone])
  }

  /** The record `onSubmit` confirms. */
  datatype BookingData = BookingData(clientInfo: ClientInfo, bookingDetails: Details)

  /**
   * `form.handleSubmit(onSubmit)` on the details page: the booking record
   * when the contact details pass the schema, the failing fields otherwise.
   * The record carries the contact details as entered and the booking as
   * read from the query.
   */
  function ConfirmBooking(c: ClientInfo, q: Query<Param>, isEmail: string -> bool): (r: Result<BookingData, seq<ClientField>>)
    ensures r.Success? <==> ClientValid(c, isEmail)
    ensures r.Success? ==> r.value.clientInfo == c && r.value.bookingDetails == DecodeDetails(q)
    ensures r.Failure? ==> r.error != [] && forall field :: field in r.error <==> !ClientFieldValid(c, field, isEmail)
  {
    var errs := ClientErrors(c, isEmail);
    if errs == [] then Success(BookingData(c, DecodeDetails(q))) else Failure(errs)
  }

  /** The page's `defaultValues`: empty contact details, which fail on every field. */
  function InitialClientInfo(): (c: ClientInfo)
    ensures forall isEmail: string -> bool, field :: !isEmail("") ==> !ClientFieldValid(c, field, isEmail)
  {
    ClientInfo("", "", "")
  }
}

=== FILE: booking_form.dfy ===
/**
 * The booking form of the booking section: the schema its values must meet,
 * the query string `onSubmit` hands to the details page, and the rules of the
 * two date pickers.
 */
module BookingForm {
  import opened Wrappers
  import opened Time
  import opened QueryString

  /** The form's values as the form library holds them; dates may not be picked yet. */
  datatype BookingFormValues = BookingFormValues(
    vehicleName: string,
    travelArea: string,
    travelDestination: string,
    pickupDate: Option<Timestamp>,
    returnDate: Option<Timestamp>,
    pickupTime: string,
    returnTime: string)

  datatype FormField = VehicleName | TravelArea | TravelDestination | PickupDate | ReturnDate | PickupTime | ReturnTime

  /** The fields in the order the schema declares them. */
  const SchemaFields: seq<FormField> :=
    [VehicleName, TravelArea, TravelDestination, PickupDate, ReturnDate, PickupTime, ReturnTime]

  /** The rule `bookingFormSchema` sets for one field. */
  predicate FieldValid(f: BookingFormValues, field: FormField) {
    match field
    case VehicleName => |f.vehicleName| >= 1
    case TravelArea => f.travelArea == "Metro Manila" || f.travelArea == "Province"
    case TravelDestination => |f.travelDestination| >= 2
    case PickupDate => f.pickupDate.Some?
    case ReturnDate => f.returnDate.Some?
    case PickupTime => |f.pickupTime| >= 1
    case ReturnTime => |f.returnTime| >= 1
  }

  predicate SchemaValid(f: BookingFormValues) {
    forall field :: FieldValid(f, field)
  }

  /** The fields among `fields` whose rule fails, keeping their order. */
  function Failing(f: BookingFormValues, fields: seq<FormField>): (errs: seq<FormField>)
    ensures forall field :: field in errs <==> field in fields && !FieldValid(f, field)
    ensures |errs| <= |fields|
    decreases |fields|
  {
    if fields == [] then []
    else
      assert fields == [fields[0]] + fields[1..];
      var rest := Failing(f, fields[1..]);
      if FieldValid(f, fields[0]) then rest else [fields[0]] + rest
  }

  /** The schema lists every field. */
  lemma EveryFieldListed()
    ensures forall field :: field in SchemaFields
  {
    forall field
      ensures field in SchemaFields
    {
      match field
      case VehicleName => assert SchemaFields[0] == field;
      case TravelArea => assert SchemaFields[1] == field;
      case TravelDestination => assert SchemaFields[2] == field;
      case PickupDate => assert SchemaFields[3] == field;
      case ReturnDate => assert SchemaFields[4] == field;
      case PickupTime => assert SchemaFields[5] == field;
      case ReturnTime => assert SchemaFields[6] == field;
    }
  }

  /** The schema's verdict: the fields whose rule fails, in schema order; none exactly when the schema accepts. */
  function FormErrors(f: BookingFormValues): (errs: seq<FormField>)
    ensures forall field :: field in errs <==> !FieldValid(f, field)
    ensures errs == [] <==> SchemaValid(f)
  {
    EveryFieldListed();
    var errs := Failing(f, SchemaFields);
    assert errs != [] ==> errs[0] in errs;
    errs
  }

  /** The query parameter names the booking pages use; `Name` gives each one's text. */
  datatype Param =
    | VehicleNameParam | TravelAreaParam | TravelDestinationParam | PickupDateParam | ReturnDateParam
    | PickupTimeParam | ReturnTimeParam | PickupLocationParam | DropoffLocationParam

  function Name(p: Param): string {
    match p
    case VehicleNameParam => "vehicleName"
    case TravelAreaParam => "travelArea"
    case TravelDestinationParam => "travelDestination"
    case PickupDateParam => "pickupDate"
    case ReturnDateParam => "returnDate"
    case PickupTimeParam => "pickupTime"
    case ReturnTimeParam => "returnTime"
    case PickupLocationParam => "pickupLocation"
    case DropoffLocationParam => "dropoffLocation"
  }

  /** Distinct parameters have distinct names. */
  lemma NamesDistinct(p: Param, q: Param)
    ensures Name(p) == Name(q) ==> p == q
  {
    if p != q {
      assert Name(p)[0] != Name(q)[0] || Name(p)[6] != Name(q)[6] || |Name(p)| != |Name(q)|;
    }
  }

  /** A query as text: each parameter replaced by its name. */
  function AsText(q: Query<Param>): (r: Query<string>)
    ensures forall key :: Get(r, Name(key)) == Get(q, key)
  {
    forall a, b ensures Name(a) == Name(b) ==> a == b { NamesDistinct(a, b); }
    forall key ensures Get(RenameKeys(q, Name), Name(key)) == Get(q, key) {
      GetRenamed(q, Name, key);
    }
    RenameKeys(q, Name)
  }

  /** The keys `onSubmit` may append, in the order it appends them. */
  const HandOffKeys: seq<Param> :=
    [VehicleNameParam, TravelAreaParam, TravelDestinationParam, PickupDateParam, ReturnDateParam, PickupTimeParam, ReturnTimeParam]

  /** Position of a key in the order `onSubmit` appends keys. */
  function KeyRank(key: Param): int {
    match key
    case VehicleNameParam => 0
    case TravelAreaParam => 1
    case TravelDestinationParam => 2
    case PickupDateParam => 3
    case ReturnDateParam => 4
    case PickupTimeParam => 5
    case ReturnTimeParam => 6
    case PickupLocationParam => 7
    case DropoffLocationParam => 8
  }

  /** Keys come in strictly increasing rank. */
  predicate RankOrdered(q: Query<Param>) {
    forall i, j :: 0 <= i < j < |q| ==> KeyRank(q[i].0) < KeyRank(q[j].0)
  }

  /** Entry keys come in strictly increasing rank. */
  predicate EntriesRankOrdered(entries: seq<(Param, Option<string>)>) {
    forall i, j :: 0 <= i < j < |entries| ==> KeyRank(entries[i].0) < KeyRank(entries[j].0)
  }

  /** Skipping entries keeps the rank order. */
  lemma PresentRanked(entries: seq<(Param, Option<string>)>)
    requires EntriesRankOrdered(entries)
    ensures RankOrdered(Present(entries))
  {
    PresentFrom(entries);
    var q := Present(entries);
    forall i, j | 0 <= i < j < |q|
      ensures KeyRank(q[i].0) < KeyRank(q[j].0)
    {
      PresentOrder(entries, i, j);
    }
  }

  /** Two pairs of `Present(entries)` come from entries in the same order. */
  lemma {:induction false} PresentOrder(entries: seq<(Param, Option<string>)>, i: nat, j: nat)
    requires EntriesRankOrdered(entries)
    requires i < j < |Present(entries)|
    ensures KeyRank(Present(entries)[i].0) < KeyRank(Present(entries)[j].0)
    decreases |entries|
  {
    var q := Present(entries);
    var rest := Present(entries[1..]);
    var head := if entries[0].1.Some? then [(entries[0].0, entries[0].1.value)] else [];
    assert q == head + rest;
    var off := |head|;
    assert forall k :: 0 <= k < |entries[1..]| ==> entries[1..][k] == entries[k + 1];
    if i < off {
      PresentFrom(entries[1..]);
      assert q[j] == rest[j - off];
      assert q[j] in rest;
      var k :| 0 <= k < |entries[1..]| && entries[1..][k] == (q[j].0, Some(q[j].1));
      assert KeyRank(entries[0].0) < KeyRank(entries[k + 1].0);
    } else {
      assert q[i] == rest[i - off] && q[j] == rest[j - off];
      PresentOrder(entries[1..], i - off, j - off);
    }
  }

  /** With rank-ordered keys, a key occurs at most once, and once when present. */
  lemma RankedCount(q: Query<Param>, key: Param)
    requires RankOrdered(q)
    ensures Count(q, key) <= 1
    ensures HasKey(q, key) ==> Count(q, key) == 1
  {
    assert DistinctKeys(q);
    CountDistinct(q, key);
  }

  /**
   * The seven `append` calls of `onSubmit`, in order. `vehicleName` is guarded
   * by the value being non-empty and each date by being picked; `iso` is
   * `toISOString`.
   */
  function HandOffEntries(f: BookingFormValues, iso: Timestamp -> string): (entries: seq<(Param, Option<string>)>)
    ensures |entries| == |HandOffKeys| && forall k :: 0 <= k < |entries| ==> entries[k].0 == HandOffKeys[k]
    ensures entries[0].1.None? <==> f.vehicleName == ""
    ensures entries[3].1.None? <==> f.pickupDate.None?
    ensures entries[4].1.None? <==> f.returnDate.None?
    ensures entries[1].1 == Some(f.travelArea) && entries[2].1 == Some(f.travelDestination)
    ensures entries[5].1 == Some(f.pickupTime) && entries[6].1 == Some(f.returnTime)
  {
    [ (VehicleNameParam, if f.vehicleName != "" then Some(f.vehicleName) else None),
      (TravelAreaParam, Some(f.travelArea)),
      (TravelDestinationParam, Some(f.travelDestination)),
      (PickupDateParam, if f.pickupDate.Some? then Some(iso(f.pickupDate.value)) else None),
      (ReturnDateParam, if f.returnDate.Some? then Some(iso(f.returnDate.value)) else None),
      (PickupTimeParam, Some(f.pickupTime)),
      (ReturnTimeParam, Some(f.returnTime)) ]
  }

  /**
   * `onSubmit`: the form as a query. `vehicleName` is sent only when non-empty
   * and each date only when picked; the area, destination and both times are
   * always sent, each exactly once. Keys come in one fixed order, and no other
   * key is sent: in particular no `pickupLocation` or `dropoffLocation`.
   */
  function EncodeQuery(f: BookingFormValues, iso: Timestamp -> string): (q: Query<Param>)
    ensures Get(q, VehicleNameParam) == if f.vehicleName != "" then Some(f.vehicleName) else None
    ensures Get(q, TravelAreaParam) == Some(f.travelArea) && Count(q, TravelAreaParam) == 1
    ensures Get(q, TravelDestinationParam) == Some(f.travelDestination) && Count(q, TravelDestinationParam) == 1
    ensures Get(q, PickupDateParam) == if f.pickupDate.Some? then Some(iso(f.pickupDate.value)) else None
    ensures Get(q, ReturnDateParam) == if f.returnDate.Some? then Some(iso(f.returnDate.value)) else None
    ensures Get(q, PickupTimeParam) == Some(f.pickupTime) && Count(q, PickupTimeParam) == 1
    ensures Get(q, ReturnTimeParam) == Some(f.returnTime) && Count(q, ReturnTimeParam) == 1
    ensures forall i :: 0 <= i < |q| ==> q[i].0 in HandOffKeys
    ensures RankOrdered(q)
    ensures !HasKey(q, PickupLocationParam) && !HasKey(q, DropoffLocationParam)
  {
    var entries := HandOffEntries(f, iso);
    var q := Present(entries);
    EncodeFacts(entries);
    PresentLookup(entries, 0);
    PresentLookup(entries, 1);
    PresentLookup(entries, 2);
    PresentLookup(entries, 3);
    PresentLookup(entries, 4);
    PresentLookup(entries, 5);
    PresentLookup(entries, 6);
    RankedCount(q, TravelAreaParam);
    RankedCount(q, TravelDestinationParam);
    RankedCount(q, PickupTimeParam);
    RankedCount(q, ReturnTimeParam);
    q
  }

  /**
   * `onSubmit` step by step: the query is exactly what the seven `append`
   * calls build, in order, each guarded one skipped when its value is absent.
   */
  lemma OnSubmitAppends(f: BookingFormValues, iso: Timestamp -> string)
    ensures EncodeQuery(f, iso) ==
      var q0: Query<Param> := [];
      var q1 := AppendIf(q0, VehicleNameParam, if f.vehicleName != "" then Some(f.vehicleName) else None);
      var q2 := Append(q1, TravelAreaParam, f.travelArea);
      var q3 := Append(q2, TravelDestinationParam, f.travelDestination);
      var q4 := AppendIf(q3, PickupDateParam, if f.pickupDate.Some? then Some(iso(f.pickupDate.value)) else None);
      var q5 := AppendIf(q4, ReturnDateParam, if f.returnDate.Some? then Some(iso(f.returnDate.value)) else None);
      var q6 := Append(q5, PickupTimeParam, f.pickupTime);
      Append(q6, ReturnTimeParam, f.returnTime)
  {
    var e := HandOffEntries(f, iso);
    assert Present(e[..0]) == [];
    assert e[..1] == e[..0] + [e[0]];
    PresentSnoc(e[..0], e[0].0, e[0].1);
    assert e[..2] == e[..1] + [e[1]];
    PresentSnoc(e[..1], e[1].0, e[1].1);
    assert e[..3] == e[..2] + [e[2]];
    PresentSnoc(e[..2], e[2].0, e[2].1);
    assert e[..4] == e[..3] + [e[3]];
    PresentSnoc(e[..3], e[3].0, e[3].1);
    assert e[..5] == e[..4] + [e[4]];
    PresentSnoc(e[..4], e[4].0, e[4].1);
    assert e[..6] == e[..5] + [e[5]];
    PresentSnoc(e[..5], e[5].0, e[5].1);
    assert e == e[..6] + [e[6]];
    PresentSnoc(e[..6], e[6].0, e[6].1);
  }

  /** Facts about any query built from entries keyed by the hand-off keys in order. */
  lemma EncodeFacts(entries: seq<(Param, Option<string>)>)
    requires |entries| == |HandOffKeys| && forall k :: 0 <= k < |entries| ==> entries[k].0 == HandOffKeys[k]
    ensures DistinctEntryKeys(entries) && EntriesRankOrdered(entries)
    ensures RankOrdered(Present(entries))
    ensures forall i :: 0 <= i < |Present(entries)| ==> Present(entries)[i].0 in HandOffKeys
    ensures !HasKey(Present(entries), PickupLocationParam) && !HasKey(Present(entries), DropoffLocationParam)
  {
    assert forall k :: 0 <= k < |HandOffKeys| ==> KeyRank(HandOffKeys[k]) == k;
    PresentRanked(entries);
    PresentFrom(entries);
    AbsentKey(entries, PickupLocationParam);
    AbsentKey(entries, DropoffLocationParam);
  }

  /** `form.handleSubmit(onSubmit)`: the hand-off query when the schema accepts the values, the failing fields otherwise. */
  function Submit(f: BookingFormValues, iso: Timestamp -> string): (r: Result<Query<Param>, seq<FormField>>)
    ensures r.Success? <==> SchemaValid(f)
    ensures r.Success? ==> r.value == EncodeQuery(f, iso)
    ensures r.Failure? ==> r.error != [] && forall field :: field in r.error <==> !FieldValid(f, field)
  {
    var errs := FormErrors(f);
    if errs == [] then Success(EncodeQuery(f, iso)) else Failure(errs)
  }

  /** On every value the schema accepts, all seven keys are sent, each exactly once. */
  lemma AcceptedFormSendsEveryKey(f: BookingFormValues, iso: Timestamp -> string)
    requires SchemaValid(f)
    ensures forall key :: key in HandOffKeys ==> Count(EncodeQuery(f, iso), key) == 1
  {
    var q := EncodeQuery(f, iso);
    assert FieldValid(f, VehicleName) && FieldValid(f, PickupDate) && FieldValid(f, ReturnDate);
    forall key | key in HandOffKeys
      ensures Count(q, key) == 1
    {
      RankedCount(q, key);
      assert Get(q, key).Some?;
    }
  }

  /**
   * `defaultValues`, with `vehicleName` then set from `vehicleToBook` when
   * that is non-empty. A fresh form fails exactly on the vehicle (when none
   * was preset), the destination and the two dates.
   */
  function InitialValues(vehicleToBook: string): (f: BookingFormValues)
    ensures f.vehicleName == vehicleToBook
    ensures f.travelArea == "Metro Manila" && f.pickupTime == "10:00" && f.returnTime == "10:00"
    ensures forall field :: field in FormErrors(f) <==>
              field in {TravelDestination, PickupDate, ReturnDate} || (field == VehicleName && vehicleToBook == "")
  {
    var defaults := BookingFormValues("", "Metro Manila", "", None, None, "10:00", "10:00");
    if vehicleToBook != "" then defaults.(vehicleName := vehicleToBook) else defaults
  }

  /**
   * The pickup picker's `disabled`: instants before today's midnight. That is
   * exactly the days before today.
   */
  function PickupDisabled(date: Timestamp, now: Timestamp): (disabled: bool)
    ensures disabled <==> StartOfDay(date) < StartOfDay(now)
  {
    var today := StartOfDay(now);
    assert StartOfDay(date) < today ==> date < today by {
      if StartOfDay(date) < today && today <= date {
        DayStartBelow(today, date);
      }
    }
    date < today
  }

  /**
   * The return picker's `disabled`: instants before the picked pickup date,
   * or before today's midnight when none is picked. The pickup date itself
   * stays selectable, and a day disabled for pickup stays disabled for
   * return whenever the pickup date was itself selectable.
   */
  function ReturnDisabled(date: Timestamp, pickup: Option<Timestamp>, now: Timestamp): (disabled: bool)
    ensures pickup.None? ==> disabled == PickupDisabled(date, now)
    ensures pickup.Some? && !disabled ==> pickup.value <= date
    ensures pickup.Some? && date == pickup.value ==> !disabled
    ensures pickup.Some? && !PickupDisabled(pickup.value, now) && PickupDisabled(date, now) ==> disabled
    ensures pickup.Some? && pickup.value <= date ==> !disabled
    ensures pickup.Some? && IsDayStart(pickup.value) ==> (disabled <==> StartOfDay(date) < pickup.value)
  {
    var limit := if pickup.Some? then pickup.value else StartOfDay(now);
    date < limit
  }
}

=== FILE: calendar.dfy ===
/**
 * The daily availability calculator of the calendar page
 * (`calculateDailyStatuses`): for each vehicle, the bookings covering the
 * selected date are clamped to the day, sorted, swept into free slots, and the
 * vehicle is `Vacant` when a slot remains.
 */
module Calendar {
  import opened Time
  import opened Intervals
  import opened Sweep

  datatype Vehicle = Vehicle(name: string, price12h: string, price24h: string)

  /**
   * A reservation: the vehicle's name, the start and end dates (any instant of
   * those days) and the `HH:mm` start and end times.
   */
  datatype Booking = Booking(vehicle: string, startDate: Timestamp, endDate: Timestamp,
                             startTime: MinuteOfDay, endTime: MinuteOfDay)

  datatype Status = Vacant | Rented

  datatype VehicleDailyStatus = VehicleDailyStatus(vehicleName: string, price12h: string, price24h: string,
                                                   status: Status, availableSlots: seq<Interval>)

  /**
   * `parse(startTime, 'HH:mm', startDate)`: the instant on the start date's
   * day whose time of day is the start time, to the whole minute.
   */
  function BookingStart(b: Booking): (r: Timestamp)
    ensures IsSameDay(r, b.startDate)
    ensures r - StartOfDay(r) == b.startTime * MinuteMs
  {
    StartOfDayUnique(StartOfDay(b.startDate) + b.startTime * MinuteMs, StartOfDay(b.startDate));
    StartOfDay(b.startDate) + b.startTime * MinuteMs
  }

  /** `parse(endTime, 'HH:mm', endDate)`: the end time on the end date's day. */
  function BookingEnd(b: Booking): (r: Timestamp)
    ensures IsSameDay(r, b.endDate)
    ensures r - StartOfDay(r) == b.endTime * MinuteMs
  {
    StartOfDayUnique(StartOfDay(b.endDate) + b.endTime * MinuteMs, StartOfDay(b.endDate));
    StartOfDay(b.endDate) + b.endTime * MinuteMs
  }

  /** The booking holds the vehicle at instant `t`. */
  predicate InBooking(b: Booking, t: Timestamp) {
    BookingStart(b) <= t < BookingEnd(b)
  }

  /** The start day is not after the end day, as `isWithinInterval` demands of its range. */
  predicate DaysOrdered(b: Booking) {
    StartOfDay(b.startDate) <= StartOfDay(b.endDate)
  }

  /** Every booking of vehicle `name` has ordered days. */
  predicate OrderedFor(bookings: seq<Booking>, name: string) {
    forall b :: b in bookings && b.vehicle == name ==> DaysOrdered(b)
  }

  /**
   * `isWithinInterval(selectedDate, { start: startOfDay(startDate), end: startOfDay(endDate) })`,
   * inclusive at both ends; `selected` itself is not truncated to midnight.
   */
  predicate CoversDate(b: Booking, selected: Timestamp)
    requires DaysOrdered(b)
  {
    StartOfDay(b.startDate) <= selected <= StartOfDay(b.endDate)
  }

  /** The bookings of vehicle `name` whose day range covers `selected`, in list order. */
  function Relevant(bookings: seq<Booking>, name: string, selected: Timestamp): (r: seq<Booking>)
    requires OrderedFor(bookings, name)
    ensures forall b :: b in r <==> b in bookings && b.vehicle == name && CoversDate(b, selected)
    ensures |r| <= |bookings|
    decreases |bookings|
  {
    if bookings == [] then []
    else
      assert bookings == [bookings[0]] + bookings[1..];
      var rest := Relevant(bookings[1..], name, selected);
      if bookings[0].vehicle == name && CoversDate(bookings[0], selected) then [bookings[0]] + rest else rest
  }

  /** The bookings of vehicle `name`, in list order. */
  function ForVehicle(bookings: seq<Booking>, name: string): (r: seq<Booking>)
    ensures forall b :: b in r <==> b in bookings && b.vehicle == name
    decreases |bookings|
  {
    if bookings == [] then []
    else
      assert bookings == [bookings[0]] + bookings[1..];
      var rest := ForVehicle(bookings[1..], name);
      if bookings[0].vehicle == name then [bookings[0]] + rest else rest
  }

  /** The relevance filter sees only the vehicle's own bookings. */
  lemma {:induction false} RelevantOnlyOwnBookings(bookings: seq<Booking>, name: string, selected: Timestamp)
    requires OrderedFor(bookings, name)
    ensures OrderedFor(ForVehicle(bookings, name), name)
    ensures Relevant(bookings, name, selected) == Relevant(ForVehicle(bookings, name), name, selected)
    decreases |bookings|
  {
    if bookings != [] {
      assert bookings == [bookings[0]] + bookings[1..];
      RelevantOnlyOwnBookings(bookings[1..], name, selected);
      if bookings[0].vehicle == name {
        assert ForVehicle(bookings, name)[1..] == ForVehicle(bookings[1..], name);
      }
    }
  }

  /**
   * The busy interval of a booking on the day `[dayStart, dayEnd]`. Clamping is
   * asymmetric: the start is raised to `dayStart`, while an end past `dayEnd`
   * becomes one minute after `dayEnd`; the start is never capped and the end
   * is never raised.
   */
  function Clamp(b: Booking, dayStart: Timestamp, dayEnd: Timestamp): (iv: Interval)
    ensures dayStart <= iv.start && BookingStart(b) <= iv.start
    ensures iv.start == dayStart || iv.start == BookingStart(b)
    ensures BookingEnd(b) <= dayEnd ==> iv.end == BookingEnd(b)
    ensures BookingEnd(b) > dayEnd ==> iv.end == AddMinutes(dayEnd, 1)
  {
    var start := if BookingStart(b) < dayStart then dayStart else BookingStart(b);
    var end := if BookingEnd(b) > dayEnd then AddMinutes(dayEnd, 1) else BookingEnd(b);
    Interval(start, end)
  }

  function ClampAll(bookings: seq<Booking>, dayStart: Timestamp, dayEnd: Timestamp): (r: seq<Interval>)
    ensures |r| == |bookings|
    ensures forall k :: 0 <= k < |r| ==> r[k] == Clamp(bookings[k], dayStart, dayEnd)
    decreases |bookings|
  {
    if bookings == [] then [] else [Clamp(bookings[0], dayStart, dayEnd)] + ClampAll(bookings[1..], dayStart, dayEnd)
  }

  /**
   * For a booking covering the selected date, the clamped interval starts by
   * the day's last minute, ends either before `dayEnd` or exactly one minute
   * after it, is well formed whenever the booking is, and within the day holds
   * exactly the instants the booking holds.
   */
  lemma ClampRelevant(b: Booking, selected: Timestamp)
    requires DaysOrdered(b) && CoversDate(b, selected)
    ensures var dayStart, dayEnd := StartOfDay(selected), EndOfDay(selected);
            var iv := Clamp(b, dayStart, dayEnd);
            && iv.start <= dayStart + (MinutesPerDay - 1) * MinuteMs
            && dayStart <= iv.end
            && (iv.end < dayEnd || iv.end == AddMinutes(dayEnd, 1))
            && (BookingStart(b) <= BookingEnd(b) ==> WellFormed(iv))
            && (forall t :: dayStart <= t <= dayEnd ==> (Holds(iv, t) <==> InBooking(b, t)))
  {
    var dayStart, dayEnd := StartOfDay(selected), EndOfDay(selected);
    DayStartBelow(StartOfDay(b.startDate), selected);
    var ed := StartOfDay(b.endDate);
    DayStartBelow(dayStart, ed);
    if BookingEnd(b) <= dayEnd {
      DayStartsApart(dayStart, ed);
    }
  }

  /** The clamped intervals of the relevant bookings, sorted by start. */
  function BusyIntervals(bookings: seq<Booking>, name: string, selected: Timestamp): (r: seq<Interval>)
    requires OrderedFor(bookings, name)
    ensures SortedByStart(r)
    ensures multiset(r) == multiset(ClampAll(Relevant(bookings, name, selected), StartOfDay(selected), EndOfDay(selected)))
    ensures forall iv :: iv in r <==>
      exists b :: b in Relevant(bookings, name, selected) && iv == Clamp(b, StartOfDay(selected), EndOfDay(selected))
  {
    var relevant := Relevant(bookings, name, selected);
    var clamped := ClampAll(relevant, StartOfDay(selected), EndOfDay(selected));
    SortKeepsElements(clamped);
    assert forall iv :: iv in clamped <==> exists k :: 0 <= k < |relevant| && iv == Clamp(relevant[k], StartOfDay(selected), EndOfDay(selected));
    SortByStart(clamped)
  }

  /** `freeSlots.filter(slot => slot.start < slot.end)`. */
  function Compact(slots: seq<Interval>): (r: seq<Interval>)
    ensures forall s :: s in r <==> s in slots && NonEmpty(s)
    ensures (forall s :: s in slots ==> NonEmpty(s)) ==> r == slots
    decreases |slots|
  {
    if slots == [] then []
    else
      assert slots == [slots[0]] + slots[1..];
      var rest := Compact(slots[1..]);
      if NonEmpty(slots[0]) then [slots[0]] + rest else rest
  }

  /**
   * One row of the result: the vehicle's name and prices, its free slots for
   * the day, and `Vacant` exactly when a slot remains. The degenerate-slot
   * filter removes nothing, and with no relevant booking the whole day is one
   * slot up to one minute past `dayEnd`.
   */
  function VehicleStatus(v: Vehicle, bookings: seq<Booking>, selected: Timestamp): (r: VehicleDailyStatus)
    requires OrderedFor(bookings, v.name)
    ensures r.vehicleName == v.name && r.price12h == v.price12h && r.price24h == v.price24h
    ensures r.status == Vacant <==> |r.availableSlots| > 0
    ensures r.availableSlots == FreeSlots(BusyIntervals(bookings, v.name, selected), StartOfDay(selected), EndOfDay(selected))
    ensures Relevant(bookings, v.name, selected) == [] ==>
              r.availableSlots == [Interval(StartOfDay(selected), AddMinutes(EndOfDay(selected), 1))] && r.status == Vacant
  {
    var dayStart := StartOfDay(selected);
    var dayEnd := EndOfDay(selected);
    var busy := BusyIntervals(bookings, v.name, selected);
    var free := FreeSlots(busy, dayStart, dayEnd);
    var slots := Compact(free);
    VehicleDailyStatus(v.name, v.price12h, v.price24h, if |slots| > 0 then Vacant else Rented, slots)
  }

  /** Every booking of a listed vehicle has ordered days. */
  predicate OrderedForAll(vehicles: seq<Vehicle>, bookings: seq<Booking>) {
    forall i :: 0 <= i < |vehicles| ==> OrderedFor(bookings, vehicles[i].name)
  }

  /** `calculateDailyStatuses`: one row per vehicle, in the order of the vehicle list. */
  function DailyStatuses(vehicles: seq<Vehicle>, bookings: seq<Booking>, selected: Timestamp): (r: seq<VehicleDailyStatus>)
    requires OrderedForAll(vehicles, bookings)
    ensures |r| == |vehicles|
    ensures forall i :: 0 <= i < |r| ==> r[i].vehicleName == vehicles[i].name
    ensures forall i :: 0 <= i < |r| ==> r[i] == VehicleStatus(vehicles[i], bookings, selected)
    decreases |vehicles|
  {
    if vehicles == [] then []
    else [VehicleStatus(vehicles[0], bookings, selected)] + DailyStatuses(vehicles[1..], bookings, selected)
  }

  /** The page's vehicle list. */
  const Vehicles: seq<Vehicle> := [
    Vehicle("MG5 CVT Core", "1,500", "2,500"),
    Vehicle("Toyota Raize", "1,800", "3,000"),
    Vehicle("Honda Brio", "1,200", "2,000")
  ]

  /** `addDays(now, k)` with fixed-length days. */
  function AddDays(now: Timestamp, k: int): Timestamp {
    now + k * DayMs
  }

  /**
   * The page's bookings, relative to the instant `now` at which the page
   * evaluates `new Date()`; times are minutes past midnight (09:00 is 540).
   */
  function Bookings(now: Timestamp): seq<Booking> {
    [ Booking("MG5 CVT Core", AddDays(now, 2), AddDays(now, 2), 540, 1020),
      Booking("MG5 CVT Core", AddDays(now, 3), AddDays(now, 4), 840, 720),
      Booking("Toyota Raize", AddDays(now, 2), AddDays(now, 2), 1080, 1320),
      Booking("Toyota Raize", AddDays(now, 10), AddDays(now, 10), 480, 1200),
      Booking("Honda Brio", AddDays(now, -5), AddDays(now, -3), 600, 600),
      Booking("Honda Brio", AddDays(now, 15), AddDays(now, 18), 660, 660),
      Booking("MG5 CVT Core", AddDays(now, 10), AddDays(now, 10), 0, 1439) ]
  }
}

=== FILE: calendar_properties.dfy ===
/**
 * What the daily availability calculator guarantees: isolation between
 * vehicles, the shape of the free slots, and the exact condition under which
 * a vehicle shows `Rented`.
 */
module CalendarProperties {
  import opened Time
  import opened Intervals
  import opened Sweep
  import opened Calendar

  /** A vehicle's row depends only on that vehicle's own bookings. */
  lemma VehicleIsolation(v: Vehicle, bookings1: seq<Booking>, bookings2: seq<Booking>, selected: Timestamp)
    requires OrderedFor(bookings1, v.name) && OrderedFor(bookings2, v.name)
    requires ForVehicle(bookings1, v.name) == ForVehicle(bookings2, v.name)
    ensures VehicleStatus(v, bookings1, selected) == VehicleStatus(v, bookings2, selected)
  {
    RelevantOnlyOwnBookings(bookings1, v.name, selected);
    RelevantOnlyOwnBookings(bookings2, v.name, selected);
  }

  /** Each busy interval starts within the day, by its last minute, and ends before `dayEnd` or one minute after it. */
  lemma BusyBounds(bookings: seq<Booking>, name: string, selected: Timestamp)
    requires OrderedFor(bookings, name)
    ensures var busy := BusyIntervals(bookings, name, selected);
            var dayStart, dayEnd := StartOfDay(selected), EndOfDay(selected);
            forall k :: 0 <= k < |busy| ==>
              && dayStart <= busy[k].start <= dayStart + (MinutesPerDay - 1) * MinuteMs
              && (busy[k].end < dayEnd || busy[k].end == AddMinutes(dayEnd, 1))
  {
    var busy := BusyIntervals(bookings, name, selected);
    forall k | 0 <= k < |busy|
      ensures StartOfDay(selected) <= busy[k].start <= StartOfDay(selected) + (MinutesPerDay - 1) * MinuteMs
      ensures busy[k].end < EndOfDay(selected) || busy[k].end == AddMinutes(EndOfDay(selected), 1)
    {
      assert busy[k] in busy;
      var b :| b in Relevant(bookings, name, selected) && busy[k] == Clamp(b, StartOfDay(selected), EndOfDay(selected));
      ClampRelevant(b, selected);
    }
  }

  /** Every free slot lies in `[dayStart, dayEnd + 1 min]` and starts before `dayEnd`. */
  lemma SlotsWithinDay(v: Vehicle, bookings: seq<Booking>, selected: Timestamp)
    requires OrderedFor(bookings, v.name)
    ensures forall s :: s in VehicleStatus(v, bookings, selected).availableSlots ==>
              StartOfDay(selected) <= s.start < EndOfDay(selected) && s.end <= AddMinutes(EndOfDay(selected), 1)
  {
    var dayStart := StartOfDay(selected);
    var busy := BusyIntervals(bookings, v.name, selected);
    BusyBounds(bookings, v.name, selected);
    SweepGapsBelow(busy, dayStart, dayStart + (MinutesPerDay - 1) * MinuteMs);
  }

  /**
   * When no relevant booking ends before it starts, the free slots are
   * strictly increasing and pairwise disjoint.
   */
  lemma SlotsOrdered(v: Vehicle, bookings: seq<Booking>, selected: Timestamp)
    requires OrderedFor(bookings, v.name)
    requires forall b :: b in Relevant(bookings, v.name, selected) ==> BookingStart(b) <= BookingEnd(b)
    ensures var slots := VehicleStatus(v, bookings, selected).availableSlots;
            forall i, j :: 0 <= i < j < |slots| ==> slots[i].end <= slots[j].start && slots[i].start < slots[j].start
  {
    var busy := BusyIntervals(bookings, v.name, selected);
    forall k | 0 <= k < |busy|
      ensures WellFormed(busy[k])
    {
      assert busy[k] in busy;
      var b :| b in Relevant(bookings, v.name, selected) && busy[k] == Clamp(b, StartOfDay(selected), EndOfDay(selected));
      ClampRelevant(b, selected);
    }
    FreeSlotsOrdered(busy, StartOfDay(selected), EndOfDay(selected));
  }

  /**
   * No instant of a free slot lies in the clamped interval of a relevant
   * booking, nor, up to `dayEnd`, in the booking itself.
   */
  lemma SlotsAvoidBookings(v: Vehicle, bookings: seq<Booking>, selected: Timestamp)
    requires OrderedFor(bookings, v.name)
    ensures forall s, b, t ::
              s in VehicleStatus(v, bookings, selected).availableSlots && b in Relevant(bookings, v.name, selected) && Holds(s, t) ==>
                !Holds(Clamp(b, StartOfDay(selected), EndOfDay(selected)), t) && (t <= EndOfDay(selected) ==> !InBooking(b, t))
  {
    var dayStart, dayEnd := StartOfDay(selected), EndOfDay(selected);
    var busy := BusyIntervals(bookings, v.name, selected);
    var slots := VehicleStatus(v, bookings, selected).availableSlots;
    FreeSlotsAvoidBusy(busy, dayStart, dayEnd);
    SlotsWithinDay(v, bookings, selected);
    forall s, b, t | s in slots && b in Relevant(bookings, v.name, selected) && Holds(s, t)
      ensures !Holds(Clamp(b, dayStart, dayEnd), t) && (t <= dayEnd ==> !InBooking(b, t))
    {
      var iv := Clamp(b, dayStart, dayEnd);
      assert iv in busy;
      var k :| 0 <= k < |busy| && busy[k] == iv;
      assert !Overlap(s, busy[k]);
      ClampRelevant(b, selected);
    }
  }

  /** Some relevant booking holds the vehicle at instant `t`. */
  predicate BookedAt(bookings: seq<Booking>, name: string, selected: Timestamp, t: Timestamp)
    requires OrderedFor(bookings, name)
  {
    exists b :: b in Relevant(bookings, name, selected) && InBooking(b, t)
  }

  /** Every millisecond of the selected day, midnight through `dayEnd`, is inside a relevant booking. */
  ghost predicate DayFullyBooked(bookings: seq<Booking>, name: string, selected: Timestamp)
    requires OrderedFor(bookings, name)
  {
    forall t :: StartOfDay(selected) <= t <= EndOfDay(selected) ==> BookedAt(bookings, name, selected, t)
  }

  /** The status criterion: a vehicle shows `Rented` exactly when its bookings leave no millisecond of the day free. */
  lemma RentedIffDayFullyBooked(v: Vehicle, bookings: seq<Booking>, selected: Timestamp)
    requires OrderedFor(bookings, v.name)
    ensures VehicleStatus(v, bookings, selected).status == Rented <==> DayFullyBooked(bookings, v.name, selected)
  {
    var dayStart, dayEnd := StartOfDay(selected), EndOfDay(selected);
    var busy := BusyIntervals(bookings, v.name, selected);
    var r := VehicleStatus(v, bookings, selected);
    if r.status == Rented {
      BusyBounds(bookings, v.name, selected);
      forall t | dayStart <= t <= dayEnd
        ensures BookedAt(bookings, v.name, selected, t)
      {
        FreeSlotsCover(busy, dayStart, dayEnd, t);
        var k :| 0 <= k < |busy| && Holds(busy[k], t);
        assert busy[k] in busy;
        var b :| b in Relevant(bookings, v.name, selected) && busy[k] == Clamp(b, dayStart, dayEnd);
        ClampRelevant(b, selected);
      }
    } else {
      var s := r.availableSlots[0];
      SlotsWithinDay(v, bookings, selected);
      SlotsAvoidBookings(v, bookings, selected);
      assert Holds(s, s.start);
      assert !BookedAt(bookings, v.name, selected, s.start);
    }
  }

  /** Only a booking whose end runs past `dayEnd` can close the day. */
  lemma RentedNeedsOverrun(v: Vehicle, bookings: seq<Booking>, selected: Timestamp)
    requires OrderedFor(bookings, v.name)
    ensures VehicleStatus(v, bookings, selected).status == Rented ==>
              exists b :: b in Relevant(bookings, v.name, selected) && BookingEnd(b) > EndOfDay(selected)
  {
    RentedIffDayFullyBooked(v, bookings, selected);
    if VehicleStatus(v, bookings, selected).status == Rented {
      assert BookedAt(bookings, v.name, selected, EndOfDay(selected));
    }
  }

  /**
   * The relevance test compares the untruncated selected instant with
   * midnights, so after midnight it misses every booking that ends on the
   * selected day, whatever day it started: with only such bookings the
   * vehicle shows the whole day free.
   */
  lemma SameDayBookingsMissedAfterMidnight(v: Vehicle, bookings: seq<Booking>, selected: Timestamp)
    requires forall b :: b in bookings && b.vehicle == v.name ==>
               StartOfDay(b.startDate) <= StartOfDay(selected) && StartOfDay(b.endDate) == StartOfDay(selected)
    requires selected != StartOfDay(selected)
    ensures OrderedFor(bookings, v.name)
    ensures VehicleStatus(v, bookings, selected).availableSlots == [Interval(StartOfDay(selected), AddMinutes(EndOfDay(selected), 1))]
  {
  }

  /** The page's mock bookings all have ordered days. */
  lemma MockBookingsOrdered(now: Timestamp)
    ensures OrderedForAll(Vehicles, Bookings(now))
  {
    forall k: int | k in {2, 3, 4, 10, -5, -3, 15, 18} {
      StartOfDayShift(now, k);
    }
  }

  /**
   * A day whose only relevant booking runs from 00:00 to 23:59 of that day is
   * not closed: the last minute stays free and the vehicle shows `Vacant`.
   */
  lemma LastMinuteStaysFree(v: Vehicle, bookings: seq<Booking>, day: Timestamp, b: Booking)
    requires IsDayStart(day)
    requires OrderedFor(bookings, v.name)
    requires Relevant(bookings, v.name, day) == [b]
    requires StartOfDay(b.startDate) == day && StartOfDay(b.endDate) == day
    requires b.startTime == 0 && b.endTime == MinutesPerDay - 1
    ensures VehicleStatus(v, bookings, day) ==
              VehicleDailyStatus(v.name, v.price12h, v.price24h, Vacant,
                                 [Interval(day + (MinutesPerDay - 1) * MinuteMs, AddMinutes(EndOfDay(day), 1))])
  {
    StartOfDayUnique(day, day);
    var dayEnd := EndOfDay(day);
    var iv := Clamp(b, day, dayEnd);
    assert iv == Interval(day, day + 1439 * MinuteMs);
    assert ClampAll([b], day, dayEnd) == [iv];
    assert SortByStart([iv]) == [iv] by {
      assert [iv][1..] == [];
    }
    assert BusyIntervals(bookings, v.name, day) == [iv];
    assert SweepFrom([iv], day) == Swept([], day + 1439 * MinuteMs) by {
      assert [iv][1..] == [];
    }
  }

  /**
   * The booking meant to show a fully booked day (00:00 to 23:59 on day +10)
   * leaves the last minute free, so the MG5 shows `Vacant` with the one slot
   * from 23:59 to one minute past `dayEnd`.
   */
  lemma FullyBookedDemoIsVacant(now: Timestamp)
    ensures OrderedForAll(Vehicles, Bookings(now))
    ensures var day := AddDays(StartOfDay(now), 10);
            DailyStatuses(Vehicles, Bookings(now), day)[0] ==
              VehicleDailyStatus("MG5 CVT Core", "1,500", "2,500", Vacant,
                                 [Interval(day + 1439 * MinuteMs, AddMinutes(EndOfDay(day), 1))])
  {
    MockBookingsOrdered(now);
    var day := AddDays(StartOfDay(now), 10);
    var bs := Bookings(now);
    var b := bs[6];
    MockRelevantOnDayTen(now);
    assert IsDayStart(day) by {
      ShiftDayStart(StartOfDay(now), 10);
    }
    assert StartOfDay(b.startDate) == day && StartOfDay(b.endDate) == day by {
      StartOfDayShift(now, 10);
    }
    assert OrderedFor(bs, Vehicles[0].name);
    LastMinuteStaysFree(Vehicles[0], bs, day, b);
    assert DailyStatuses(Vehicles, bs, day)[0] == VehicleStatus(Vehicles[0], bs, day);
  }

  /** On day +10 at midnight only the 00:00 to 23:59 booking concerns the MG5. */
  lemma MockRelevantOnDayTen(now: Timestamp)
    ensures OrderedForAll(Vehicles, Bookings(now))
    ensures Relevant(Bookings(now), "MG5 CVT Core", AddDays(StartOfDay(now), 10)) == [Bookings(now)[6]]
  {
    MockBookingsOrdered(now);
    var day := AddDays(StartOfDay(now), 10);
    var bs := Bookings(now);
    var name := "MG5 CVT Core";
    StartOfDayShift(now, 2);
    StartOfDayShift(now, 3);
    StartOfDayShift(now, 4);
    StartOfDayShift(now, 10);
    assert bs[6..][1..] == [];
    assert Relevant(bs[6..], name, day) == [bs[6]];
    RelevantSkip(bs, 5, name, day);
    RelevantSkip(bs, 4, name, day);
    RelevantSkip(bs, 3, name, day);
    RelevantSkip(bs, 2, name, day);
    RelevantSkip(bs, 1, name, day);
    RelevantSkip(bs, 0, name, day);
    assert bs[0..] == bs;
  }

  /** A booking that is not relevant drops out of the filter. */
  lemma RelevantSkip(bookings: seq<Booking>, k: nat, name: string, selected: Timestamp)
    requires k < |bookings|
    requires OrderedFor(bookings, name)
    requires !(bookings[k].vehicle == name && CoversDate(bookings[k], selected))
    ensures OrderedFor(bookings[k..], name) && OrderedFor(bookings[k + 1..], name)
    ensures Relevant(bookings[k..], name, selected) == Relevant(bookings[k + 1..], name, selected)
  {
    assert forall b :: b in bookings[k..] ==> b in bookings;
    assert bookings[k..][0] == bookings[k];
    assert bookings[k..][1..] == bookings[k + 1..];
  }
}

=== FILE: intervals.dfy ===
/**
 * Time intervals (`AvailabilitySlot` in the calendar page) and the sort of busy
 * intervals by start time.
 */
module Intervals {
  import opened Time

  /** `{ start, end }`, read as the half-open span `[start, end)`. */
  datatype Interval = Interval(start: Timestamp, end: Timestamp)

  /** Not degenerate: the compaction filter keeps exactly these. */
  predicate NonEmpty(iv: Interval) {
    iv.start < iv.end
  }

  /** Start not after end; only same-day bookings whose end time precedes their start time break this. */
  predicate WellFormed(iv: Interval) {
    iv.start <= iv.end
  }

  predicate Holds(iv: Interval, t: Timestamp) {
    iv.start <= t < iv.end
  }

  predicate Overlap(a: Interval, b: Interval) {
    a.start < b.end && b.start < a.end
  }

  predicate SortedByStart(s: seq<Interval>) {
    forall i, j :: 0 <= i < j < |s| ==> s[i].start <= s[j].start
  }

  /**
   * Inserts `iv` ahead of the first element that does not start earlier, so an
   * element inserted later in the fold (earlier in the input) stays in front of
   * equal starts: the sort is stable, like `Array.prototype.sort`.
   */
  function Insert(iv: Interval, s: seq<Interval>): (r: seq<Interval>)
    requires SortedByStart(s)
    ensures SortedByStart(r)
    ensures multiset(r) == multiset(s) + multiset{iv}
    decreases |s|
  {
    if s == [] || iv.start <= s[0].start then
      [iv] + s
    else
      var tail := Insert(iv, s[1..]);
      assert s == [s[0]] + s[1..];
      assert forall k :: 0 <= k < |tail| ==> s[0].start <= tail[k].start by {
        forall k | 0 <= k < |tail|
          ensures s[0].start <= tail[k].start
        {
          assert tail[k] in multiset(tail);
          assert tail[k] == iv || tail[k] in multiset(s[1..]);
        }
      }
      [s[0]] + tail
  }

  /** `busyIntervals.sort((a, b) => a.start - b.start)`. */
  function SortByStart(s: seq<Interval>): (r: seq<Interval>)
    ensures SortedByStart(r)
    ensures multiset(r) == multiset(s)
    decreases |s|
  {
    if s == [] then []
    else
      assert s == [s[0]] + s[1..];
      Insert(s[0], SortByStart(s[1..]))
  }

  /** The sorted intervals are the original ones: same elements, same length. */
  lemma SortKeepsElements(s: seq<Interval>)
    ensures |SortByStart(s)| == |s|
    ensures forall x :: x in SortByStart(s) <==> x in s
  {
    var r := SortByStart(s);
    assert |multiset(r)| == |multiset(s)|;
    forall x
      ensures x in r <==> x in s
    {
      assert x in r <==> x in multiset(r);
      assert x in s <==> x in multiset(s);
    }
  }
}

=== FILE: query_string.dfy ===
/**
 * Query strings as `URLSearchParams` holds them: an ordered list of key/value
 * pairs, where a key may repeat and `get` answers with the first match. The
 * key type is a parameter; the pages use a fixed set of parameter names.
 */
module QueryString {
  import opened Wrappers

  type Query<K> = seq<(K, string)>

  /** `params.append(key, value)`. */
  function Append<K(==)>(q: Query<K>, key: K, value: string): (r: Query<K>)
    ensures |r| == |q| + 1 && r[..|q|] == q && r[|q|] == (key, value)
  {
    q + [(key, value)]
  }

  /** Some pair of `q` has key `key`. */
  predicate HasKey<K(==)>(q: Query<K>, key: K) {
    exists i :: 0 <= i < |q| && q[i].0 == key
  }

  /** `params.get(key)`: the value of the first pair with key `key`, or `null`. */
  function Get<K(==)>(q: Query<K>, key: K): (r: Option<string>)
    ensures r.None? <==> !HasKey(q, key)
    ensures r.Some? ==> exists i :: 0 <= i < |q| && q[i] == (key, r.value) && forall j :: 0 <= j < i ==> q[j].0 != key
    decreases |q|
  {
    if q == [] then None
    else if q[0].0 == key then Some(q[0].1)
    else
      var r := Get(q[1..], key);
      assert forall i :: 1 <= i < |q| ==> q[i] == q[1..][i - 1];
      r
  }

  /** How many pairs carry key `key`. */
  function Count<K(==)>(q: Query<K>, key: K): (n: nat)
    ensures n == 0 <==> !HasKey(q, key)
    ensures n <= |q|
    decreases |q|
  {
    if q == [] then 0
    else
      assert forall i :: 1 <= i < |q| ==> q[i] == q[1..][i - 1];
      (if q[0].0 == key then 1 else 0) + Count(q[1..], key)
  }

  /** Appending under another key, or after the key is already present, leaves `get` unchanged. */
  lemma {:induction false} GetAppend<K>(q: Query<K>, key: K, k: K, v: string)
    ensures Get(Append(q, k, v), key) == if HasKey(q, key) || k != key then Get(q, key) else Some(v)
    decreases |q|
  {
    var r := Append(q, k, v);
    if q != [] {
      assert r[1..] == Append(q[1..], k, v);
      if q[0].0 != key {
        GetAppend(q[1..], key, k, v);
        assert HasKey(q, key) <==> HasKey(q[1..], key) by {
          assert forall i :: 1 <= i < |q| ==> q[i] == q[1..][i - 1];
          if HasKey(q, key) {
            var i :| 0 <= i < |q| && q[i].0 == key;
            assert q[1..][i - 1].0 == key;
          }
        }
      }
    }
  }

  /** No key occurs twice. */
  ghost predicate DistinctKeys<K>(q: Query<K>) {
    forall i, j :: 0 <= i < j < |q| ==> q[i].0 != q[j].0
  }

  /** With distinct keys, every key occurs at most once. */
  lemma {:induction false} CountDistinct<K>(q: Query<K>, key: K)
    requires DistinctKeys(q)
    ensures Count(q, key) <= 1
    decreases |q|
  {
    if q != [] {
      CountDistinct(q[1..], key);
      if q[0].0 == key {
        assert !HasKey(q[1..], key) by {
          assert forall i :: 0 <= i < |q[1..]| ==> q[1..][i] == q[i + 1];
        }
      }
    }
  }

  /**
   * The query built by appending, in order, every entry whose value is
   * present; an absent value stands for an `append` its guard skips.
   */
  function Present<K>(entries: seq<(K, Option<string>)>): (q: Query<K>)
    ensures |q| <= |entries|
    decreases |entries|
  {
    if entries == [] then []
    else
      var head := if entries[0].1.Some? then [(entries[0].0, entries[0].1.value)] else [];
      head + Present(entries[1..])
  }

  /** `if (value) params.append(key, value)`: an append that a missing value skips. */
  function AppendIf<K(==)>(q: Query<K>, key: K, value: Option<string>): (r: Query<K>)
    ensures |r| == |q| + (if value.Some? then 1 else 0) && r[..|q|] == q
    ensures value.Some? ==> r[|q|] == (key, value.value)
    ensures value.None? ==> r == q
    ensures value.Some? ==> r == Append(q, key, value.value)
  {
    if value.Some? then Append(q, key, value.value) else q
  }

  /** Adding one entry at the end of the list appends its pair, or nothing when its value is absent. */
  lemma {:induction false} PresentSnoc<K>(entries: seq<(K, Option<string>)>, key: K, value: Option<string>)
    ensures Present(entries + [(key, value)]) == AppendIf(Present(entries), key, value)
    decreases |entries|
  {
    var e := entries + [(key, value)];
    if entries == [] {
      assert e[1..] == [];
    } else {
      assert e[1..] == entries[1..] + [(key, value)];
      PresentSnoc(entries[1..], key, value);
      var head := if entries[0].1.Some? then [(entries[0].0, entries[0].1.value)] else [];
      var rest := Present(entries[1..]);
      assert Present(entries) == head + rest;
      assert Present(e) == head + AppendIf(rest, key, value);
      if value.Some? {
        assert head + (rest + [(key, value.value)]) == (head + rest) + [(key, value.value)];
      }
    }
  }

  /** Entry keys are pairwise distinct. */
  ghost predicate DistinctEntryKeys<K>(entries: seq<(K, Option<string>)>) {
    forall i, j :: 0 <= i < j < |entries| ==> entries[i].0 != entries[j].0
  }

  /** Each pair of `Present(entries)` comes from an entry carrying that value. */
  lemma {:induction false} PresentFrom<K>(entries: seq<(K, Option<string>)>)
    ensures forall p :: p in Present(entries) ==> (p.0, Some(p.1)) in entries
    decreases |entries|
  {
    if entries != [] {
      PresentFrom(entries[1..]);
      assert entries == [entries[0]] + entries[1..];
    }
  }

  /** A key no entry carries is absent from the query. */
  lemma AbsentKey<K>(entries: seq<(K, Option<string>)>, key: K)
    requires forall j :: 0 <= j < |entries| ==> entries[j].0 != key
    ensures !HasKey(Present(entries), key)
  {
    PresentFrom(entries);
  }

  /** With distinct entry keys, `get` answers each entry's key with that entry's value, or `null` when it was skipped. */
  lemma {:induction false} PresentLookup<K>(entries: seq<(K, Option<string>)>, i: nat)
    requires DistinctEntryKeys(entries)
    requires i < |entries|
    ensures Get(Present(entries), entries[i].0) == entries[i].1
    decreases |entries|
  {
    var key := entries[i].0;
    var rest := Present(entries[1..]);
    assert forall j :: 0 <= j < |entries[1..]| ==> entries[1..][j] == entries[j + 1];
    if i == 0 {
      if entries[0].1.None? {
        AbsentKey(entries[1..], key);
      }
    } else {
      PresentLookup(entries[1..], i - 1);
      assert entries[1..][i - 1] == entries[i];
      assert key != entries[0].0;
      if entries[0].1.Some? {
        assert Present(entries) == [(entries[0].0, entries[0].1.value)] + rest;
        assert Present(entries)[1..] == rest;
      } else {
        assert Present(entries) == rest;
      }
    }
  }

  /** The same query with every key renamed by `rename`. */
  function RenameKeys<K, L>(q: Query<K>, rename: K -> L): (r: Query<L>)
    ensures |r| == |q| && forall i :: 0 <= i < |q| ==> r[i] == (rename(q[i].0), q[i].1)
  {
    if q == [] then [] else [(rename(q[0].0), q[0].1)] + RenameKeys(q[1..], rename)
  }

  /** Renaming keys one-to-one does not change what `get` answers. */
  lemma {:induction false} GetRenamed<K, L>(q: Query<K>, rename: K -> L, key: K)
    requires forall a, b :: rename(a) == rename(b) ==> a == b
    ensures Get(RenameKeys(q, rename), rename(key)) == Get(q, key)
    decreases |q|
  {
    if q != [] {
      var r := RenameKeys(q, rename);
      assert r[1..] == RenameKeys(q[1..], rename);
      GetRenamed(q[1..], rename, key);
    }
  }
}

=== FILE: sweep.dfy ===
/**
 * The free/busy sweep of the calendar page: walk the busy intervals in start
 * order with a cursor (`lastBusyEnd`), emit every gap before an interval as a
 * free slot, then a trailing slot up to one minute past the end of the day.
 */
module Sweep {
  import opened Time
  import opened Intervals

  /** Free slots found so far, and the cursor `lastBusyEnd`. */
  datatype Swept = Swept(gaps: seq<Interval>, cursor: Timestamp)

  /** Some interval of `s` holds instant `t`. */
  predicate Covered(s: seq<Interval>, t: Timestamp) {
    exists k :: 0 <= k < |s| && Holds(s[k], t)
  }

  /** `lastBusyEnd` after one interval: raised to the interval's end when that is later. */
  function Advance(iv: Interval, cursor: Timestamp): Timestamp {
    if iv.end > cursor then iv.end else cursor
  }

  /** The slot pushed for one interval: `[cursor, start)` when it starts after the cursor. */
  function GapBefore(iv: Interval, cursor: Timestamp): seq<Interval> {
    if iv.start > cursor then [Interval(cursor, iv.start)] else []
  }

  /**
   * The loop over the busy intervals, as a left-to-right fold starting from
   * cursor `cursor`. The cursor never decreases and passes every busy end;
   * each gap is non-degenerate and starts at or after the initial cursor.
   */
  function SweepFrom(busy: seq<Interval>, cursor: Timestamp): (r: Swept)
    ensures cursor <= r.cursor
    ensures forall k :: 0 <= k < |busy| ==> busy[k].end <= r.cursor
    ensures forall g :: g in r.gaps ==> cursor <= g.start && NonEmpty(g)
    ensures |r.gaps| <= |busy|
    decreases |busy|
  {
    if busy == [] then Swept([], cursor)
    else
      var rest := SweepFrom(busy[1..], Advance(busy[0], cursor));
      assert forall k :: 1 <= k < |busy| ==> busy[k] == busy[1..][k - 1];
      Swept(GapBefore(busy[0], cursor) + rest.gaps, rest.cursor)
  }

  /** The final cursor is the initial one or the end of some busy interval. */
  lemma {:induction false} SweepCursorIsAnEnd(busy: seq<Interval>, c: Timestamp)
    ensures var r := SweepFrom(busy, c);
            r.cursor == c || exists k :: 0 <= k < |busy| && r.cursor == busy[k].end
    decreases |busy|
  {
    if busy != [] {
      var next := Advance(busy[0], c);
      SweepCursorIsAnEnd(busy[1..], next);
      var r := SweepFrom(busy[1..], next);
      if r.cursor != next {
        var k :| 0 <= k < |busy[1..]| && r.cursor == busy[1..][k].end;
        assert busy[k + 1] == busy[1..][k];
      }
    }
  }

  /** Sweeping `a + b` is sweeping `a`, then sweeping `b` from where `a` left the cursor. */
  lemma {:induction false} SweepAppend(a: seq<Interval>, b: seq<Interval>, c: Timestamp)
    ensures var first := SweepFrom(a, c);
            var second := SweepFrom(b, first.cursor);
            SweepFrom(a + b, c) == Swept(first.gaps + second.gaps, second.cursor)
    decreases |a|
  {
    if a == [] {
      assert a + b == b;
    } else {
      assert (a + b)[0] == a[0];
      assert (a + b)[1..] == a[1..] + b;
      SweepAppend(a[1..], b, Advance(a[0], c));
    }
  }

  /**
   * With well-formed busy intervals the gaps come out in increasing order,
   * pairwise disjoint, and none extends past the final cursor.
   */
  lemma {:induction false} SweepGapsOrdered(busy: seq<Interval>, c: Timestamp)
    requires forall k :: 0 <= k < |busy| ==> WellFormed(busy[k])
    ensures var r := SweepFrom(busy, c);
            && (forall i, j :: 0 <= i < j < |r.gaps| ==> r.gaps[i].end <= r.gaps[j].start)
            && (forall g :: g in r.gaps ==> g.end <= r.cursor)
    decreases |busy|
  {
    if busy != [] {
      var iv := busy[0];
      var next := Advance(iv, c);
      assert forall k :: 0 <= k < |busy[1..]| ==> busy[1..][k] == busy[k + 1];
      SweepGapsOrdered(busy[1..], next);
      var rest := SweepFrom(busy[1..], next);
      if iv.start > c {
        var gaps := SweepFrom(busy, c).gaps;
        assert gaps == [Interval(c, iv.start)] + rest.gaps;
        forall i, j | 0 <= i < j < |gaps|
          ensures gaps[i].end <= gaps[j].start
        {
          if i == 0 {
            assert gaps[j] in rest.gaps;
          } else {
            assert gaps[i] == rest.gaps[i - 1] && gaps[j] == rest.gaps[j - 1];
          }
        }
      }
    }
  }

  /** With busy intervals sorted by start, no gap overlaps any busy interval. */
  lemma {:induction false} SweepGapsAvoidBusy(busy: seq<Interval>, c: Timestamp)
    requires SortedByStart(busy)
    ensures forall g, k :: g in SweepFrom(busy, c).gaps && 0 <= k < |busy| ==> !Overlap(g, busy[k])
    decreases |busy|
  {
    if busy != [] {
      var iv := busy[0];
      var next := Advance(iv, c);
      var tail := busy[1..];
      assert forall k :: 1 <= k < |busy| ==> busy[k] == tail[k - 1];
      SweepGapsAvoidBusy(tail, next);
      var rest := SweepFrom(tail, next);
      forall g, k | g in SweepFrom(busy, c).gaps && 0 <= k < |busy|
        ensures !Overlap(g, busy[k])
      {
        if g in rest.gaps {
          if k > 0 {
            assert busy[k] == tail[k - 1];
          }
        } else {
          assert g == Interval(c, iv.start);
        }
      }
    }
  }

  /** Every gap ends at the start of some busy interval, so no later than any common bound on those starts. */
  lemma {:induction false} SweepGapsBelow(busy: seq<Interval>, c: Timestamp, bound: Timestamp)
    requires forall k :: 0 <= k < |busy| ==> busy[k].start <= bound
    ensures forall g :: g in SweepFrom(busy, c).gaps ==> g.end <= bound
    decreases |busy|
  {
    if busy != [] {
      var next := Advance(busy[0], c);
      assert forall k :: 0 <= k < |busy[1..]| ==> busy[1..][k] == busy[k + 1];
      SweepGapsBelow(busy[1..], next, bound);
    }
  }

  /** Every instant the cursor has passed lies in a gap or in a busy interval. */
  lemma {:induction false} SweepCovers(busy: seq<Interval>, c: Timestamp, t: Timestamp)
    requires c <= t < SweepFrom(busy, c).cursor
    ensures Covered(SweepFrom(busy, c).gaps, t) || Covered(busy, t)
    decreases |busy|
  {
    var iv := busy[0];
    var next := Advance(iv, c);
    var rest := SweepFrom(busy[1..], next);
    var gaps := SweepFrom(busy, c).gaps;
    if t < iv.start {
      assert gaps[0] == Interval(c, iv.start);
      assert Holds(gaps[0], t);
    } else if t < next {
      assert Holds(busy[0], t);
    } else {
      SweepCovers(busy[1..], next, t);
      if Covered(rest.gaps, t) {
        var k :| 0 <= k < |rest.gaps| && Holds(rest.gaps[k], t);
        var off := |gaps| - |rest.gaps|;
        assert gaps[off + k] == rest.gaps[k];
      } else {
        var k :| 0 <= k < |busy[1..]| && Holds(busy[1..][k], t);
        assert busy[k + 1] == busy[1..][k];
      }
    }
  }

  /**
   * A busy interval that starts no later than an earlier interval ends, and
   * ends no later, changes nothing: removing it leaves gaps and cursor as they
   * were. In particular an interval nested inside an earlier one opens no gap.
   */
  lemma NestedOpensNoGap(busy: seq<Interval>, c: Timestamp, i: nat, j: nat)
    requires i < j < |busy|
    requires busy[j].start <= busy[i].end && busy[j].end <= busy[i].end
    ensures SweepFrom(busy, c) == SweepFrom(busy[..j] + busy[j + 1..], c)
  {
    var pre, post := busy[..j], busy[j + 1..];
    assert busy == pre + ([busy[j]] + post);
    SweepAppend(pre, [busy[j]] + post, c);
    SweepAppend(pre, post, c);
    var c1 := SweepFrom(pre, c).cursor;
    assert pre[i] == busy[i];
    SkipPassed(busy[j], post, c1);
  }

  /** An interval the cursor has already passed, start and end, leaves the sweep unchanged. */
  lemma SkipPassed(iv: Interval, rest: seq<Interval>, c: Timestamp)
    requires iv.start <= c && iv.end <= c
    ensures SweepFrom([iv] + rest, c) == SweepFrom(rest, c)
  {
    assert ([iv] + rest)[1..] == rest;
    assert GapBefore(iv, c) == [];
  }

  /**
   * The free slots of one day: the gaps, then `[lastBusyEnd, addMinutes(dayEnd, 1)]`
   * when the sweep stopped before `dayEnd`. Every slot is non-degenerate and
   * starts at or after `dayStart`; with nothing busy the whole day is one slot.
   */
  function FreeSlots(busy: seq<Interval>, dayStart: Timestamp, dayEnd: Timestamp): (r: seq<Interval>)
    ensures forall s :: s in r ==> NonEmpty(s) && dayStart <= s.start
    ensures busy == [] && dayStart < dayEnd ==> r == [Interval(dayStart, AddMinutes(dayEnd, 1))]
  {
    var swept := SweepFrom(busy, dayStart);
    swept.gaps + (if swept.cursor < dayEnd then [Interval(swept.cursor, AddMinutes(dayEnd, 1))] else [])
  }

  /** With well-formed busy intervals the free slots are strictly increasing and pairwise disjoint. */
  lemma FreeSlotsOrdered(busy: seq<Interval>, dayStart: Timestamp, dayEnd: Timestamp)
    requires forall k :: 0 <= k < |busy| ==> WellFormed(busy[k])
    ensures var r := FreeSlots(busy, dayStart, dayEnd);
            forall i, j :: 0 <= i < j < |r| ==> r[i].end <= r[j].start && r[i].start < r[j].start
  {
    var swept := SweepFrom(busy, dayStart);
    SweepGapsOrdered(busy, dayStart);
    var r := FreeSlots(busy, dayStart, dayEnd);
    forall i, j | 0 <= i < j < |r|
      ensures r[i].end <= r[j].start && r[i].start < r[j].start
    {
      assert r[i] in r;
      if j >= |swept.gaps| {
        assert r[i] == swept.gaps[i];
      }
    }
  }

  /** With busy intervals sorted by start, no free slot overlaps a busy interval. */
  lemma FreeSlotsAvoidBusy(busy: seq<Interval>, dayStart: Timestamp, dayEnd: Timestamp)
    requires SortedByStart(busy)
    ensures forall s, k :: s in FreeSlots(busy, dayStart, dayEnd) && 0 <= k < |busy| ==> !Overlap(s, busy[k])
  {
    SweepGapsAvoidBusy(busy, dayStart);
  }

  /**
   * When no busy interval ends inside `[dayEnd, dayEnd + 1 min)`, every instant
   * from `dayStart` up to one minute past `dayEnd` is free or busy.
   */
  lemma FreeSlotsCover(busy: seq<Interval>, dayStart: Timestamp, dayEnd: Timestamp, t: Timestamp)
    requires dayStart < dayEnd
    requires forall k :: 0 <= k < |busy| ==> busy[k].end < dayEnd || AddMinutes(dayEnd, 1) <= busy[k].end
    requires dayStart <= t < AddMinutes(dayEnd, 1)
    ensures Covered(FreeSlots(busy, dayStart, dayEnd), t) || Covered(busy, t)
  {
    var swept := SweepFrom(busy, dayStart);
    var r := FreeSlots(busy, dayStart, dayEnd);
    if t < swept.cursor {
      SweepCovers(busy, dayStart, t);
      if Covered(swept.gaps, t) {
        var k :| 0 <= k < |swept.gaps| && Holds(swept.gaps[k], t);
        assert r[k] == swept.gaps[k];
      }
    } else {
      SweepCursorIsAnEnd(busy, dayStart);
      assert swept.cursor < dayEnd;
      assert Holds(r[|r| - 1], t);
    }
  }
}

=== FILE: time.dfy ===
/**
 * Millisecond timestamps and the day arithmetic the pages take from date-fns
 * (`startOfDay`, `endOfDay`, `addMinutes`, `addDays`, `isSameDay`).
 *
 * Days are fixed 86 400 000 ms spans counted from the epoch: local time zones
 * and daylight-saving shifts are not modelled.
 */
module Time {

  /** Milliseconds since the epoch, as `Date.getTime()` returns them. */
  type Timestamp = int

  const MinuteMs: int := 60_000
  const MinutesPerDay: int := 1440
  const DayMs: int := 86_400_000

  /** A booking time written `HH:mm`, as minutes past midnight. */
  type MinuteOfDay = m: int | 0 <= m < 1440

  /** True of the first millisecond of a day. */
  predicate IsDayStart(t: Timestamp) {
    t % DayMs == 0
  }

  /** `startOfDay`: the midnight at or before `t`. */
  function StartOfDay(t: Timestamp): (d: Timestamp)
    ensures IsDayStart(d)
    ensures d <= t < d + DayMs
  {
    t - t % DayMs
  }

  /** `endOfDay`: the last millisecond (23:59:59.999) of the day holding `t`. */
  function EndOfDay(t: Timestamp): (e: Timestamp)
    ensures t <= e < t + DayMs
    ensures IsDayStart(e + 1)
  {
    StartOfDay(t) + DayMs - 1
  }

  /** `addMinutes(t, n)`. */
  function AddMinutes(t: Timestamp, n: int): Timestamp {
    t + n * MinuteMs
  }

  /** `isSameDay(a, b)`. */
  predicate IsSameDay(a: Timestamp, b: Timestamp) {
    StartOfDay(a) == StartOfDay(b)
  }

  /** Two midnights less than a day apart are the same midnight. */
  lemma DayStartsApart(d1: Timestamp, d2: Timestamp)
    requires IsDayStart(d1) && IsDayStart(d2)
    requires d1 <= d2 < d1 + DayMs
    ensures d1 == d2
  {
    var q1, q2 := d1 / DayMs, d2 / DayMs;
    assert d1 == q1 * DayMs;
    assert d2 == q2 * DayMs;
    assert (q2 - q1) * DayMs < DayMs;
    assert 0 <= (q2 - q1) * DayMs;
  }

  /** `startOfDay(t)` is the only midnight within a day before `t`. */
  lemma StartOfDayUnique(t: Timestamp, d: Timestamp)
    requires IsDayStart(d)
    requires d <= t < d + DayMs
    ensures StartOfDay(t) == d
  {
    var s := StartOfDay(t);
    if s <= d {
      DayStartsApart(s, d);
    } else {
      DayStartsApart(d, s);
    }
  }

  /** A midnight at or before `t` is at or before `startOfDay(t)`. */
  lemma DayStartBelow(d: Timestamp, t: Timestamp)
    requires IsDayStart(d)
    requires d <= t
    ensures d <= StartOfDay(t)
  {
    var s := StartOfDay(t);
    if s < d {
      DayStartsApart(s, d);
    }
  }

  /** Moving a midnight by whole days gives a midnight. */
  lemma ShiftDayStart(d: Timestamp, k: int)
    requires IsDayStart(d)
    ensures IsDayStart(d + k * DayMs)
  {
    var q := d / DayMs;
    assert d + k * DayMs == (q + k) * DayMs;
  }

  /** `startOfDay(addDays(t, k))`: whole-day shifts commute with truncation. */
  lemma StartOfDayShift(t: Timestamp, k: int)
    ensures StartOfDay(t + k * DayMs) == StartOfDay(t) + k * DayMs
  {
    ShiftDayStart(StartOfDay(t), k);
    StartOfDayUnique(t + k * DayMs, StartOfDay(t) + k * DayMs);
  }
}

=== FILE: wrappers.dfy ===
/** Optional values and validation outcomes shared by the modules of this model. */
module Wrappers {

  /** A value that may be absent: `null` in the source, or a missing query parameter. */
  datatype Option<+T> = None | Some(value: T)

  /** The outcome of a schema check: the accepted value, or the failing fields. */
  datatype Result<+R, +E> = Success(value: R) | Failure(error: E)
}
